=== FILE: README.md ===
# Note lifecycle of the notepad extension

This project is a Dafny model of the note store behind the notepad browser
extension, which lives in `script.js`. The page keeps its state in a few
module-level variables:

- `notes`, the active collection;
- `deletedNotes`, the recycle bin;
- `currentNoteId`;
- `isRecycleBinViewActive`;
- `currentSortOrder`;
- `currentTheme`;
- the text of the search box.

Every DOM handler changes that state. The model turns the variables into one
immutable `State` record, and each handler into a pure function from state to
state.

Drawing the side list (`renderNotesList`) starts with `sortNotes()`, which sorts
`notes` in place. That is the one state effect of drawing, and `Store.Render`
models it. Every handler that redraws the list therefore re-sorts the active
collection.

The inputs the page takes from its surroundings become parameters:

- the clock (`now`);
- the fresh id that `Date.now()` supplies (`id`);
- the editor's title and markup when the autosave timer fires;
- the answer to the confirmation dialog (`confirmed`);
- `localeCompare`. `titleLe(x, y)` stands for `x.localeCompare(y) <= 0` and is
  only assumed to be a total preorder.

## Modules

- `sorting.dfy` (`Sorting`): a stable insertion sort over a "may stay before"
  relation. It is proved to return a sorted permutation, to keep tied elements
  in input order, and to change nothing when sorted again. `Array.prototype.sort`
  is stable.
- `notes.dfy` (`Notes`):
  - the `Note` record;
  - id lookup (`findIndex`);
  - `splice` and `filter` by id;
  - the list ordering of `sortNotes`;
  - the recycle-bin listing order.
- `text.dfy` (`JsText`): `toLowerCase`, `trim` and `includes`.
- `search.dfy` (`Search`): the search-box filter applied before drawing.
- `theme.dfy` (`Theme`): the four-theme cycle and how a stored theme is read back.
- `export.dfy` (`Export`): the file name a note is exported under.
- `store.dfy` (`Store`): the state and one transition per user event, plus
  start-up (`loadData`).
- `lifecycle.dfy` (`Lifecycle`):
  - the events as one dispatch function;
  - the invariant every reachable state keeps: ids unique across both
    collections, no selection while the bin is shown, a selection always names
    an active note, and the list is in order;
  - the proof that every event preserves the invariant.
- `properties.dfy` (`StoreProperties`): properties that relate several events,
  such as delete-then-restore, flush-twice and pin-twice, and worked examples.

## Model

| member | source | states |
|---|---|---|
| Notes.FindIndex | script.js:157 | `findIndex` by id: the first position carrying the id, and -1 exactly when no note carries it |
| Notes.RemoveAt | script.js:168 | `splice(i, 1)` leaves one note fewer: exactly the note at `i` and one occurrence of its id are gone |
| Notes.RemoveAtShift | script.js:168 | after `splice(i, 1)`, notes before `i` stay in place and later ones move down by one |
| Notes.RemoveId | script.js:497 | `filter(n => n.id !== id)` keeps a note exactly when it was there and carries another id |
| Notes.RemoveIdConcat | script.js:497 | dropping an id distributes over concatenation, so the notes `filter` keeps stay in their original order |
| Notes.IdBagRemoveId | script.js:497 | that filter removes every occurrence of the id and leaves the counts of all other ids alone |
| Notes.IdBagPermutation | script.js:276 | reordering notes in place never changes which ids the collection holds |
| Notes.SortNotes | script.js:275-289 | `sortNotes` returns a permutation of the list, so it holds the same ids |
| Notes.NoteOrderTotalPreorder | script.js:276-287 | if `localeCompare` is a total preorder, the comparator (pinned first, then by mode) is one in every mode, including unknown ones |
| Notes.SortNotesSpec | script.js:275-289 | the sorted list is a permutation with pinned notes before unpinned ones. Within a group it is ordered by title for `title-az`, by ascending `lastModified` for `date-asc`, and by descending `lastModified` for anything else. Equal notes keep their order, and sorting again changes nothing |
| Notes.UniqueIdsFind | script.js:239 | when ids are unique, looking up the id of a note in the list finds that very note |
| Notes.BinListing | script.js:123 | the bin is listed from a sorted copy that holds exactly the deleted notes |
| Notes.BinListingSpec | script.js:123 | the bin lists every deleted note once, most recent `lastModified` first, with ties in collection order |
| Sorting.SortBy | script.js:276 | the sort returns a permutation of its input |
| Sorting.SortBySorted | script.js:276 | under a total preorder, the sort's result is ordered |
| Sorting.SortBySortedUnchanged | script.js:276 | an already ordered sequence is left exactly as it was |
| Sorting.SortByIdempotent | script.js:276 | sorting twice gives the same as sorting once |
| Sorting.SortByStable | script.js:276 | stability: elements that compare equal come out in their input order |
| JsText.LowerChar | script.js:295 | `toLowerCase` on one character: ASCII capitals become lower-case letters and everything else is unchanged |
| JsText.ToLower | script.js:295 | `toLowerCase` keeps the length and lower-cases each character |
| JsText.Trim | script.js:295 | `trim` is a slice of the input with white space only around it. It neither starts nor ends with white space, and it is empty exactly when the input is all white space |
| JsText.TrimNoSpace | script.js:295 | a string with no white space at either end is its own trim |
| JsText.IncludesIffOccurs | script.js:297 | `includes` is true exactly when the query occurs at some position |
| Search.NormalizeQuery | script.js:295 | the query is the lower-cased text with only white space cut from both ends: it does not start or end with white space, and it is empty exactly when the typed text is all white space |
| Search.KeepMatching | script.js:297 | the filter keeps a note exactly when its lower-cased title or markup includes the query, and takes nothing that was not there |
| Search.KeepMatchingConcat | script.js:297 | filtering distributes over concatenation, so matching notes keep their relative order |
| Search.FilterNotes | script.js:295-298 | an empty normalised query shows every note unchanged; otherwise exactly the matching notes are shown |
| Search.FilterNotesOccurs | script.js:295-298 | a non-empty query shows a note exactly when the query occurs in its lower-cased title or lower-cased markup |
| Search.BlankQueryShowsAll | script.js:295-298 | a query made only of white space shows the whole list in order |
| Search.FooFindsFoobar | script.js:295-297 | matching ignores case: "foo" finds the title "Foobar" |
| Theme.ThemeIndex | script.js:80 | `themes.indexOf`: the position of a known theme, and -1 exactly for an unknown one |
| Theme.NextTheme | script.js:80-81 | the next theme is always one of the four and differs from a known current one. An unknown theme moves to `light` |
| Theme.NextThemeSteps | script.js:79-81 | the cycle is light, then dark, then slate, then glassmorphism, then light |
| Theme.NextThemeCycle | script.js:79-81 | four clicks bring each theme back, and passing through them visits all four |
| Theme.LoadedTheme | script.js:45 | a stored theme is kept only when it is one of the four; otherwise `glassmorphism` is used |
| Export.ReplaceNonAlnum | script.js:264 | `replace(/[^a-z0-9]/gi, '_')` keeps ASCII letters and digits and turns every other character into `_`, keeping the length |
| Export.FileStem | script.js:264 | the stem is non-empty and made only of lower-case letters, digits and `_`. A blank title gives `untitled_note`; otherwise the stem is as long as the trimmed title |
| Export.FileStemChars | script.js:264 | each character of the trimmed title becomes its lower-case form if it is an ASCII letter or digit, and `_` otherwise |
| Export.FileStemIdempotent | script.js:264 | a note titled with a stem is exported under that same stem |
| Export.ExportFileName | script.js:264-267 | the download name is the title's file stem followed by `.txt`, so it is made of letters, digits and `_` before the extension |
| Export.BlankTitleExport | script.js:264-267 | a note with a blank title downloads as `untitled_note.txt` |
| Store.Initial | script.js:26-32 | the variables start with no notes, an empty bin, no selection, the editor view, `date-desc` and `glassmorphism` |
| Store.EmptyNote | script.js:143 | a new note has the given id and time stamp, an empty title and content, and no pin |
| Store.Render | script.js:292-293 | drawing the list only reorders the active notes; nothing else changes |
| Store.ShowEditorView | script.js:88-96 | leaving the bin shows the editor, with the same notes, bin and selection (a cleared selection is not given back). Outside the bin nothing changes |
| Store.ShowRecycleBinView | script.js:98-136 | the bin is shown afterwards. Entering it drops the selection, and refreshing it keeps the selection. Both collections keep their contents |
| Store.CreateNote | script.js:140-153 | one empty note with the fresh id joins the active notes and is selected. The editor is shown, the search box is cleared, and the bin is untouched |
| Store.InsertCapturedNote | script.js:198-217 | the captured note joins the active notes and is selected, and the editor is shown. The search box and the bin are untouched |
| Store.DeleteCurrent | script.js:155-183 | with no truthy selection, or one not found, nothing changes. A sole active note is emptied in place and the bin is untouched. Otherwise the selected note moves to the bin. The total count, the combined ids and whether any note is active are all kept |
| Store.ResetSoleNote | script.js:159-166 | the only active note keeps its id and gets an empty title and content, no pin and the new time stamp. Bin and selection are untouched |
| Store.MoveToBin | script.js:168-177 | the note at `i` leaves the list and goes, stamped, to the front of the bin. The selection passes to the note that followed it, or to the one before it when it was last. The combined ids are kept |
| Store.SuccessorKept | script.js:172-174 | `notes[min(i, length - 1)]` after the splice is the note that followed the deleted one, or the one before it when it was last |
| Store.Restore | script.js:463-491 | outside the bin, or for an id the bin does not hold, nothing changes. Otherwise the first bin entry with that id is moved back. The total count and the combined ids are kept |
| Store.MoveFromBin | script.js:479-488 | the bin entry at `i` leaves the bin and joins the active notes, stamped and selected, and the editor is shown. Each collection changes by exactly that note |
| Store.PermanentDelete | script.js:495-503 | only in the bin and only after confirmation: exactly the bin entries with that id are gone. The active notes keep their contents and the selection is untouched; that their order is untouched too is `StoreProperties.RedrawKeepsList` |
| Store.TogglePin | script.js:238-246 | a stale id changes nothing. Otherwise the first active note with that id gets its pin flipped and is stamped. Ids, bin and selection are untouched |
| Store.PinAt | script.js:239-244 | exactly the note at `i` is replaced by its flipped, stamped copy |
| Store.SelectNote | script.js:451-459 | the clicked note ends up selected in the editor view. Clicking the note already open outside the bin changes nothing. Both collections keep their contents |
| Store.FlushEdit | script.js:345-360 | when the timer fires with no selection, or one that is not found, nothing changes. Otherwise the selected note is written. Ids, bin and selection are untouched |
| Store.FlushAt | script.js:349-358 | unchanged title and markup leave the state exactly as it was, `lastModified` included. Otherwise exactly that note is replaced by one with the editor's values and the new time stamp |
| Store.Autosave | script.js:341-360 | an edit with no truthy selection, or made in the bin, leaves the notes alone. Otherwise the edit is written exactly as its flush writes it. Ids, bin and selection are never changed |
| Store.SetSortOrder | script.js:507-511 | the chosen mode is stored, and the list is re-sorted with the same notes |
| Store.SetQuery | script.js:506 | the search text is stored, and the list is redrawn with the same notes |
| Store.ToggleTheme | script.js:79-83 | the theme becomes the next one of the cycle, `Theme.NextTheme` of the current theme, so `Theme.NextThemeSteps` and `Theme.NextThemeCycle` apply to the button. It is one of the four and differs from a known current one. The notes are untouched |
| Store.Visible | script.js:295-298 | the list shows a sub-multiset of the active notes |
| Store.RepairSelection | script.js:54-56 | a selection that names an active note is kept. Otherwise the first active note is selected, or none when there is none |
| Store.LoadedSortOrder | script.js:44 | a missing or empty stored mode becomes `date-desc`; any other is kept |
| Store.Load | script.js:40-62 | the theme and mode are restored. With nothing stored there is one empty note, selected, and an empty bin. Otherwise the stored notes and bin are kept, and the selection is present exactly when an active note exists, naming an active one |
| Store.StartEmpty | script.js:50-51 | with nothing stored, exactly one empty note exists and is selected, and the search box is cleared |
| Store.StartStored | script.js:52-57 | the stored notes are sorted and the selection repaired: it names an active note, and with none before it names the first note in list order |
| Lifecycle.RenderSorted | script.js:292-293 | after drawing, the active list is in order for the current mode |
| Lifecycle.RenderValid | script.js:292-293 | drawing turns a consistent state into a valid one |
| Lifecycle.SetSortOrderValid | script.js:507-511 | changing the sort mode keeps the invariant |
| Lifecycle.SetQueryValid | script.js:506 | typing in the search box keeps the invariant |
| Lifecycle.ToggleThemeValid | script.js:79-83 | the theme button keeps the invariant |
| Lifecycle.ShowRecycleBinViewValid | script.js:98-136 | opening the bin keeps the invariant, since it drops the selection |
| Lifecycle.ShowEditorViewValid | script.js:88-96 | leaving the bin keeps the invariant |
| Lifecycle.CreateNoteValid | script.js:140-153 | a new note with a fresh id keeps the invariant |
| Lifecycle.InsertCapturedNoteValid | script.js:198-217 | a captured note with a fresh id keeps the invariant |
| Lifecycle.DeleteCurrentValid | script.js:155-183 | deleting the current note keeps the invariant; in particular the successor it selects is active |
| Lifecycle.RestoreValid | script.js:478-491 | restoring keeps the invariant |
| Lifecycle.PermanentDeleteValid | script.js:495-503 | permanent deletion keeps the invariant |
| Lifecycle.TogglePinValid | script.js:238-246 | pinning keeps the invariant |
| Lifecycle.SelectNoteValid | script.js:445-459 | selecting a drawn note keeps the invariant |
| Lifecycle.AutosaveValid | script.js:341-360 | an edit and its flush keep the invariant |
| Lifecycle.FlushEditValid | script.js:345-360 | a flush keeps the invariant |
| Lifecycle.StepValid | script.js:437-513 | every event the page can receive in a valid state, with a fresh id for new notes and a drawn note for clicks, leads to a valid state |
| Lifecycle.RunValid | script.js:437-513 | any sequence of such events keeps the invariant |
| Lifecycle.StartEmptyValid | script.js:50-51 | starting from nothing stored gives a valid state |
| Lifecycle.StartStoredValid | script.js:52-57 | starting from stored notes with unique ids gives a valid state |
| Lifecycle.LoadValid | script.js:40-62 | loading a snapshot whose ids are unique gives a valid state |
| Lifecycle.Lifetime | script.js:518-520 | after start-up and any events: no id is shared, the bin view has no selection, a selection names an active note, and the list is in order |
| StoreProperties.LoadSelectsFirst | script.js:53-56 | loading stored notes selects the first note of the sorted list |
| StoreProperties.DeletedToBinFront | script.js:168-170 | a deleted note is, stamped, the front bin entry under its id, which the bin did not hold before |
| StoreProperties.RestoreFirst | script.js:479-484 | restoring the front bin entry takes exactly that entry back and selects it |
| StoreProperties.DeleteThenRestore | script.js:155-183 | deleting and then restoring a note brings it back selected, with only its time stamp renewed, and the bin as it was |
| StoreProperties.FlushTwiceIsFlushOnce | script.js:349-355 | a second flush of the same editor values changes nothing, not even the time stamp |
| StoreProperties.FlushedFound | script.js:346-354 | after a flush that wrote, looking the id up finds the editor's title and markup |
| StoreProperties.PinnedFound | script.js:239-242 | after a pin toggle, looking the id up finds the flipped, stamped note |
| StoreProperties.PinTwice | script.js:238-246 | toggling the pin twice restores it; only the time stamp moves on |
| StoreProperties.RenderIdle | script.js:292-293 | redrawing a list that is already in order for the sort mode, as in every valid state, changes nothing |
| StoreProperties.RedrawKeepsList | script.js:495-500 | in a valid state a permanent delete, opening the bin and typing in the search box leave the active list exactly as it was, order included |
| StoreProperties.BinIgnoresEditing | script.js:342 | while the bin is shown, typing, a pending flush and the delete button change nothing |
| StoreProperties.BackToNotesSelectsNothing | script.js:88-105 | opening the bin and leaving it leaves no note selected, even when notes exist |
| StoreProperties.PinnedFirstExample | script.js:277 | an older pinned note is listed before a newer unpinned one |
| StoreProperties.SortTwoInOrder | script.js:275-289 | two notes already in list order keep it |
| StoreProperties.RemoveMiddle | script.js:168 | splicing out the middle of three notes leaves the outer two in order |
| StoreProperties.DeleteMiddleFindsIndex | script.js:157 | with the middle of three notes selected, the delete finds index 1 |
| StoreProperties.DeleteMiddleSelectsSuccessor | script.js:168-177 | deleting the middle of three notes selects the note after it, not the one before |

## Behaviour worth knowing

- **Delete selects the successor.** After the splice, the code selects
  `notes[min(index, length - 1)]`. That is the note that followed the deleted
  one, or the one before it when the deleted note was last.
- **Pin works in the bin.** Pin toggling has no bin guard. The side list stays
  visible in the bin, so a pin click changes an active note there too.
- **The flush reads the state when the timer fires.** It looks up the
  selection and reads the editor fields at that moment, not at the moment of
  the edit.
- **Id 0 counts as "no selection" for delete, editing and export.** A list
  click can select the id 0. The guards `!currentNoteId` of delete, of the edit
  handler and of export (script.js:249) still treat it as nothing selected
  (`Store.Selected`).
- **"Back to Notes" gives no selection back.** Opening the bin clears
  `currentNoteId`, and leaving it does not restore it. The invariant therefore
  allows an editor view with no selection.

## Left out

- `chrome.storage` reads and writes: `saveData` has no effect on the state, and
  the stored snapshot is an input record.
- DOM drawing, markup, toasts, focus and the `disabled` flags of buttons: these
  are presentation only. Only the re-sort that drawing performs is modelled.
- The 500 ms debounce timer itself. `Typed` is an edit immediately followed by
  its flush. `TimerFired` is a flush that fires after any other events.
- Screenshot capture, clipboard writes, `fetch` and the Blob download: these
  are browser APIs. Only the insertion of the captured note and the export file
  name are modelled. The captured title `Screenshot - <date>` and the `<img>`
  markup are parameters.
- The toolbar's `execCommand` calls and paste handling: opaque editor commands.
- `updateLastSavedDisplay` and `updateWordCount`: they depend on the wall
  clock, floating-point rounding and `innerText`, and do not change the state.
- `updateDeletedCount`: it only shows the bin's size (`deletedNotes.length`)
  on the page and does not change the state.
- The collation of `localeCompare`: it is abstract, assumed only to be a total
  preorder.
- JsText.LowerChar, JsText.ToLower, Search.NormalizeQuery, Search.KeepMatching,
  Search.FilterNotes, Search.FilterNotesOccurs: lower-casing covers ASCII
  letters only. Other capitals, such as `É`, are left as they are, so the query
  `ÉCOLE` does not find the title `école`, which the page finds. `trim` does
  strip the full set of JavaScript white-space and line-terminator characters.
- Export.ReplaceNonAlnum, Export.FileStem, Export.FileStemChars: strings are
  sequences of Unicode scalar values, while JavaScript strings are sequences of
  UTF-16 code units. The regular expression has no `u` flag, so the page
  replaces a character outside the Basic Multilingual Plane, such as an emoji,
  with two `_`. The model replaces it with one.
- Store.Load, Lifecycle.Lifetime: events that arrive before storage has
  answered are not modelled. The listeners are attached while the read is still
  pending. A bin opened in that window can end with a selection while the bin
  is shown. So the invariant, and `Lifetime`, hold from the moment the stored
  data has been loaded.
- Store.Autosave: the model covers only an edit followed directly by its flush.
  A flush that fires later, after other events, is the separate `TimerFired`
  event. The timer that a later edit cancels is not modelled.
- Store.Visible: the contract only states that the shown notes are drawn from
  the active ones. The exact set shown is stated on `Search.FilterNotes` and
  `Search.FilterNotesOccurs`.
- Lifecycle.StepValid: a new note's id must not be in use yet. The page takes
  the id from the clock and does not check it.
- The 64-bit floating-point nature of ids and time stamps: they are modelled as
  unbounded integers, and `Number(dataset.id)` is taken to give back the id.

=== FILE: export.dfy ===
/** The file name offered when a note is exported as plain text. */
module Export {
  import opened JsText

  predicate IsAsciiAlnum(c: char)
  {
    ('a' <= c <= 'z') || ('A' <= c <= 'Z') || ('0' <= c <= '9')
  }

  /** The characters a file stem can contain. */
  predicate IsStemChar(c: char)
  {
    ('a' <= c <= 'z') || ('0' <= c <= '9') || c == '_'
  }

  /** `replace(/[^a-z0-9]/gi, '_')`. */
  function ReplaceNonAlnum(s: string): (r: string)
    ensures |r| == |s|
    ensures forall i :: 0 <= i < |s| ==>
      (IsAsciiAlnum(s[i]) ==> r[i] == s[i]) && (!IsAsciiAlnum(s[i]) ==> r[i] == '_')
  {
    seq(|s|, i requires 0 <= i < |s| => if IsAsciiAlnum(s[i]) then s[i] else '_')
  }

  /** `(title.trim() || 'untitled_note').replace(/[^a-z0-9]/gi, '_').toLowerCase()`. */
  function FileStem(title: string): (r: string)
    ensures |r| > 0
    ensures forall i :: 0 <= i < |r| ==> IsStemChar(r[i])
    ensures Trim(title) == "" ==> r == "untitled_note"
    ensures Trim(title) != "" ==> |r| == |Trim(title)|
  {
    var base := if Trim(title) == "" then "untitled_note" else Trim(title);
    var r := ToLower(ReplaceNonAlnum(base));
    assert Trim(title) == "" ==> ReplaceNonAlnum(base) == base;
    r
  }

  /** The download name: the stem followed by `.txt`. */
  function ExportFileName(title: string): (r: string)
    ensures |r| > 4 && r[|r| - 4..] == ".txt"
    ensures r[..|r| - 4] == FileStem(title)
    ensures forall i :: 0 <= i < |r| - 4 ==> IsStemChar(r[i])
  {
    FileStem(title) + ".txt"
  }

  /** Each character of the trimmed title is kept lower-cased when it is an
      ASCII letter or digit and becomes `_` otherwise. */
  lemma FileStemChars(title: string)
    requires Trim(title) != ""
    ensures forall i :: 0 <= i < |Trim(title)| ==>
      FileStem(title)[i] == if IsAsciiAlnum(Trim(title)[i]) then LowerChar(Trim(title)[i]) else '_'
  {
  }

  /** Exporting a note titled with a file stem gives that stem back. */
  lemma FileStemIdempotent(title: string)
    ensures FileStem(FileStem(title)) == FileStem(title)
  {
    var s := FileStem(title);
    assert !IsWhitespace(s[0]) && !IsWhitespace(s[|s| - 1]) by {
      StemNotSpace(s[0]);
      StemNotSpace(s[|s| - 1]);
    }
    TrimNoSpace(s);
    StemFixed(s);
  }

  lemma StemNotSpace(c: char)
    requires IsStemChar(c)
    ensures !IsWhitespace(c)
  {
  }

  /** A string made of stem characters passes the replacement and the
      lower-casing unchanged. */
  lemma StemFixed(s: string)
    requires forall i :: 0 <= i < |s| ==> IsStemChar(s[i])
    ensures ToLower(ReplaceNonAlnum(s)) == s
  {
    var t := ToLower(ReplaceNonAlnum(s));
    forall i | 0 <= i < |s|
      ensures t[i] == s[i]
    {
      assert IsStemChar(s[i]);
    }
  }

  lemma BlankTitleExport(title: string)
    requires forall i :: 0 <= i < |title| ==> IsWhitespace(title[i])
    ensures ExportFileName(title) == "untitled_note.txt"
  {
  }
}

=== FILE: lifecycle.dfy ===
/** The note lifecycle as a whole: the events the page reacts to, the
    invariant every reachable state keeps, and the properties that relate
    several events. */
module Lifecycle {
  import opened Wrappers
  import opened Sorting
  import opened Notes
  import opened Store
  import Theme

  /** The user events, as a dispatch table over the store's transitions. */
  datatype Event =
    | NewNote(id: int, now: int)
    | Screenshot(id: int, title: string, content: string, now: int)
    | DeleteNote(now: int)
    | RestoreNote(id: int, now: int)
    | PurgeNote(id: int, confirmed: bool)
    | PinClick(id: int, now: int)
    | NoteClick(id: int)
    | TimerFired(title: string, content: string, now: int)
    | Typed(editedTitle: string, editedContent: string, editedAt: int)
    | SortChange(mode: string)
    | SearchInput(raw: string)
    | ThemeClick
    | OpenBin
    | BackToNotes

  function Step(st: State, ev: Event, titleLe: (string, string) -> bool): State
  {
    match ev
    case NewNote(id, now) => CreateNote(st, id, now, titleLe)
    case Screenshot(id, title, content, now) => InsertCapturedNote(st, id, title, content, now, titleLe)
    case DeleteNote(now) => DeleteCurrent(st, now, titleLe)
    case RestoreNote(id, now) => Restore(st, id, now, titleLe)
    case PurgeNote(id, confirmed) => PermanentDelete(st, id, confirmed, titleLe)
    case PinClick(id, now) => TogglePin(st, id, now, titleLe)
    case NoteClick(id) => SelectNote(st, id, titleLe)
    case TimerFired(title, content, now) => FlushEdit(st, title, content, now, titleLe)
    case Typed(title, content, now) => Autosave(st, title, content, now, titleLe)
    case SortChange(mode) => SetSortOrder(st, mode, titleLe)
    case SearchInput(raw) => SetQuery(st, raw, titleLe)
    case ThemeClick => ToggleTheme(st)
    case OpenBin => ShowRecycleBinView(st, titleLe)
    case BackToNotes => ShowEditorView(st, titleLe)
  }

  /** What the surroundings guarantee about an event: a new note's id is not
      in use yet (the page takes it from the clock and does not check), and a
      clicked note is one the list drew, hence an active one. */
  ghost predicate Allowed(st: State, ev: Event)
  {
    match ev
    case NewNote(id, _) => id !in IdBag(st.notes + st.deleted)
    case Screenshot(id, _, _, _) => id !in IdBag(st.notes + st.deleted)
    case NoteClick(id) => id in IdBag(st.notes)
    case _ => true
  }

  function Run(st: State, evs: seq<Event>, titleLe: (string, string) -> bool): State
    decreases |evs|
  {
    if |evs| == 0 then st else Run(Step(st, evs[0], titleLe), evs[1..], titleLe)
  }

  ghost predicate AllowedRun(st: State, evs: seq<Event>, titleLe: (string, string) -> bool)
    decreases |evs|
  {
    |evs| == 0 || (Allowed(st, evs[0]) && AllowedRun(Step(st, evs[0], titleLe), evs[1..], titleLe))
  }

  /** The invariant without the ordering: ids unique across both collections,
      no selection while the bin is shown, and a selection always names an
      active note. A missing selection outside the bin is allowed: "Back to
      Notes" leaves one. */
  ghost predicate Consistent(st: State)
  {
    && UniqueIds(st.notes + st.deleted)
    && (st.binView ==> st.current.None?)
    && (st.current.Some? ==> st.current.value in IdBag(st.notes))
  }

  /** The invariant of every reachable state: consistent, and the active
      collection is in list order for the current sort mode. */
  ghost predicate Valid(st: State, titleLe: (string, string) -> bool)
  {
    Consistent(st) && Sorted(st.notes, NoteOrder(st.sortOrder, titleLe))
  }

  /** Ids stay unique when the two collections together carry no more ids
      than before. */
  lemma UniqueWhenFewer(a: seq<Note>, b: seq<Note>, c: seq<Note>, d: seq<Note>)
    requires UniqueIds(c + d)
    requires IdBag(a) + IdBag(b) <= IdBag(c) + IdBag(d)
    ensures UniqueIds(a + b)
  {
    IdsConcat(a, b);
    IdsConcat(c, d);
    forall k
      ensures IdBag(a + b)[k] <= 1
    {
      assert IdBag(c + d)[k] <= 1;
    }
  }

  /** Ids stay unique when a fresh one joins. */
  lemma UniqueWhenFreshAdded(a: seq<Note>, b: seq<Note>, c: seq<Note>, d: seq<Note>, id: int)
    requires UniqueIds(c + d) && id !in IdBag(c + d)
    requires IdBag(a) + IdBag(b) == IdBag(c) + IdBag(d) + multiset{id}
    ensures UniqueIds(a + b)
  {
    IdsConcat(a, b);
    IdsConcat(c, d);
    forall k
      ensures IdBag(a + b)[k] <= 1
    {
      assert IdBag(c + d)[k] <= 1;
    }
  }

  lemma RenderSorted(st: State, titleLe: (string, string) -> bool)
    requires TotalPreorder(titleLe)
    ensures Sorted(Render(st, titleLe).notes, NoteOrder(st.sortOrder, titleLe))
  {
    NoteOrderTotalPreorder(st.sortOrder, titleLe);
    SortBySorted(st.notes, NoteOrder(st.sortOrder, titleLe));
  }

  /** Redrawing repairs the ordering and keeps consistency. */
  lemma RenderValid(st: State, titleLe: (string, string) -> bool)
    requires TotalPreorder(titleLe) && Consistent(st)
    ensures Valid(Render(st, titleLe), titleLe)
  {
    var r := Render(st, titleLe);
    RenderSorted(st, titleLe);
    UniqueWhenFewer(r.notes, r.deleted, st.notes, st.deleted);
  }

  lemma SetSortOrderValid(st: State, mode: string, titleLe: (string, string) -> bool)
    requires TotalPreorder(titleLe) && Valid(st, titleLe)
    ensures Valid(SetSortOrder(st, mode, titleLe), titleLe)
  {
    RenderValid(st.(sortOrder := mode), titleLe);
  }

  lemma SetQueryValid(st: State, raw: string, titleLe: (string, string) -> bool)
    requires TotalPreorder(titleLe) && Valid(st, titleLe)
    ensures Valid(SetQuery(st, raw, titleLe), titleLe)
  {
    RenderValid(st.(query := raw), titleLe);
  }

  lemma ToggleThemeValid(st: State, titleLe: (string, string) -> bool)
    requires Valid(st, titleLe)
    ensures Valid(ToggleTheme(st), titleLe)
  {
    var r := ToggleTheme(st);
    assert r.notes == st.notes && r.deleted == st.deleted && r.current == st.current;
  }

  /** Opening the bin clears the selection, so consistency survives it. */
  lemma ShowRecycleBinViewValid(st: State, titleLe: (string, string) -> bool)
    requires TotalPreorder(titleLe) && Valid(st, titleLe)
    ensures Valid(ShowRecycleBinView(st, titleLe), titleLe)
  {
    RenderValid(if st.binView then st else st.(binView := true, current := None), titleLe);
  }

  lemma ShowEditorViewValid(st: State, titleLe: (string, string) -> bool)
    requires TotalPreorder(titleLe) && Valid(st, titleLe)
    ensures Valid(ShowEditorView(st, titleLe), titleLe)
  {
    if st.binView {
      RenderValid(st.(binView := false), titleLe);
    }
  }

  lemma CreateNoteValid(st: State, id: int, now: int, titleLe: (string, string) -> bool)
    requires TotalPreorder(titleLe) && Valid(st, titleLe)
    requires id !in IdBag(st.notes + st.deleted)
    ensures Valid(CreateNote(st, id, now, titleLe), titleLe)
  {
    var s1 := ShowEditorView(st, titleLe);
    var s2 := s1.(notes := [EmptyNote(id, now)] + s1.notes, current := Some(id), query := "");
    IdsConcat([EmptyNote(id, now)], s1.notes);
    assert Ids([EmptyNote(id, now)]) == [id];
    UniqueWhenFreshAdded(s2.notes, s2.deleted, st.notes, st.deleted, id);
    RenderValid(s2, titleLe);
  }

  lemma InsertCapturedNoteValid(st: State, id: int, title: string, content: string, now: int,
                                titleLe: (string, string) -> bool)
    requires TotalPreorder(titleLe) && Valid(st, titleLe)
    requires id !in IdBag(st.notes + st.deleted)
    ensures Valid(InsertCapturedNote(st, id, title, content, now, titleLe), titleLe)
  {
    var n := Note(id, title, content, false, now);
    var s1 := st.(notes := [n] + st.notes, current := Some(id));
    IdsConcat([n], st.notes);
    assert Ids([n]) == [id];
    UniqueWhenFreshAdded(s1.notes, s1.deleted, st.notes, st.deleted, id);
    if s1.binView {
      RenderValid(s1.(binView := false), titleLe);
    } else {
      RenderValid(s1, titleLe);
    }
  }

  lemma DeleteCurrentValid(st: State, now: int, titleLe: (string, string) -> bool)
    requires TotalPreorder(titleLe) && Valid(st, titleLe)
    ensures Valid(DeleteCurrent(st, now, titleLe), titleLe)
  {
    var r := DeleteCurrent(st, now, titleLe);
    if r != st {
      UniqueWhenFewer(r.notes, r.deleted, st.notes, st.deleted);
      var i := FindIndex(st.notes, st.current.value);
      if |st.notes| == 1 {
        var blank := Note(st.notes[0].id, "", "", false, now);
        RenderSorted(st.(notes := [blank]), titleLe);
      } else {
        var rest := RemoveAt(st.notes, i);
        RenderSorted(st.(notes := rest), titleLe);
      }
    }
  }

  lemma RestoreValid(st: State, id: int, now: int, titleLe: (string, string) -> bool)
    requires TotalPreorder(titleLe) && Valid(st, titleLe)
    ensures Valid(Restore(st, id, now, titleLe), titleLe)
  {
    if st.binView && id in IdBag(st.deleted) {
      var i := FindIndex(st.deleted, id);
      var back := st.deleted[i].(lastModified := now);
      var s1 := st.(deleted := RemoveAt(st.deleted, i), notes := [back] + st.notes, current := Some(id));
      var r := Restore(st, id, now, titleLe);
      UniqueWhenFewer(r.notes, r.deleted, st.notes, st.deleted);
      RenderSorted(s1.(binView := false), titleLe);
    }
  }

  lemma PermanentDeleteValid(st: State, id: int, confirmed: bool, titleLe: (string, string) -> bool)
    requires TotalPreorder(titleLe) && Valid(st, titleLe)
    ensures Valid(PermanentDelete(st, id, confirmed, titleLe), titleLe)
  {
    var r := PermanentDelete(st, id, confirmed, titleLe);
    if st.binView && confirmed {
      assert IdBag(r.deleted) <= IdBag(st.deleted);
      UniqueWhenFewer(r.notes, r.deleted, st.notes, st.deleted);
      RenderSorted(st.(deleted := RemoveId(st.deleted, id)), titleLe);
    }
  }

  lemma TogglePinValid(st: State, id: int, now: int, titleLe: (string, string) -> bool)
    requires TotalPreorder(titleLe) && Valid(st, titleLe)
    ensures Valid(TogglePin(st, id, now, titleLe), titleLe)
  {
    var r := TogglePin(st, id, now, titleLe);
    var i := FindIndex(st.notes, id);
    if i != -1 {
      var n := st.notes[i];
      UniqueWhenFewer(r.notes, r.deleted, st.notes, st.deleted);
      RenderSorted(st.(notes := st.notes[i := n.(isPinned := !n.isPinned, lastModified := now)]), titleLe);
    }
  }

  lemma SelectNoteValid(st: State, id: int, titleLe: (string, string) -> bool)
    requires TotalPreorder(titleLe) && Valid(st, titleLe)
    requires id in IdBag(st.notes)
    ensures Valid(SelectNote(st, id, titleLe), titleLe)
  {
    if !(st.current == Some(id) && !st.binView) {
      var s1 := ShowEditorView(st, titleLe);
      UniqueWhenFewer(s1.notes, s1.deleted, st.notes, st.deleted);
      RenderValid(s1.(current := Some(id)), titleLe);
    }
  }

  lemma AutosaveValid(st: State, title: string, content: string, now: int,
                      titleLe: (string, string) -> bool)
    requires TotalPreorder(titleLe) && Valid(st, titleLe)
    ensures Valid(Autosave(st, title, content, now, titleLe), titleLe)
  {
    FlushEditValid(st, title, content, now, titleLe);
  }

  lemma FlushEditValid(st: State, title: string, content: string, now: int,
                       titleLe: (string, string) -> bool)
    requires TotalPreorder(titleLe) && Valid(st, titleLe)
    ensures Valid(FlushEdit(st, title, content, now, titleLe), titleLe)
  {
    var r := FlushEdit(st, title, content, now, titleLe);
    if st.current.Some? {
      var i := FindIndex(st.notes, st.current.value);
      if i != -1 {
        var n := st.notes[i];
        UniqueWhenFewer(r.notes, r.deleted, st.notes, st.deleted);
        var edited := n.(title := title, content := content, lastModified := now);
        RenderSorted(st.(notes := st.notes[i := edited]), titleLe);
      }
    }
  }

  /** Every event allowed in a valid state leads to a valid state. */
  lemma StepValid(st: State, ev: Event, titleLe: (string, string) -> bool)
    requires TotalPreorder(titleLe) && Valid(st, titleLe) && Allowed(st, ev)
    ensures Valid(Step(st, ev, titleLe), titleLe)
  {
    match ev
    case NewNote(id, now) =>
      CreateNoteValid(st, id, now, titleLe);
      StepNewNote(st, ev, titleLe);
    case Screenshot(id, title, content, now) =>
      InsertCapturedNoteValid(st, id, title, content, now, titleLe);
      StepScreenshot(st, ev, titleLe);
    case DeleteNote(now) =>
      DeleteCurrentValid(st, now, titleLe);
      StepDeleteNote(st, ev, titleLe);
    case RestoreNote(id, now) =>
      RestoreValid(st, id, now, titleLe);
      StepRestoreNote(st, ev, titleLe);
    case PurgeNote(id, confirmed) =>
      PermanentDeleteValid(st, id, confirmed, titleLe);
      StepPurgeNote(st, ev, titleLe);
    case PinClick(id, now) =>
      TogglePinValid(st, id, now, titleLe);
      StepPinClick(st, ev, titleLe);
    case NoteClick(id) =>
      SelectNoteValid(st, id, titleLe);
      StepNoteClick(st, ev, titleLe);
    case TimerFired(title, content, now) =>
      FlushEditValid(st, title, content, now, titleLe);
      StepTimerFired(st, ev, titleLe);
    case Typed(title, content, now) =>
      AutosaveValid(st, title, content, now, titleLe);
      StepTyped(st, ev, titleLe);
    case SortChange(mode) =>
      SetSortOrderValid(st, mode, titleLe);
      StepSortChange(st, ev, titleLe);
    case SearchInput(raw) =>
      SetQueryValid(st, raw, titleLe);
      StepSearchInput(st, ev, titleLe);
    case ThemeClick =>
      ToggleThemeValid(st, titleLe);
      StepThemeClick(st, ev, titleLe);
    case OpenBin =>
      ShowRecycleBinViewValid(st, titleLe);
      StepOpenBin(st, ev, titleLe);
    case BackToNotes =>
      ShowEditorViewValid(st, titleLe);
      StepBackToNotes(st, ev, titleLe);
  }

  /* One dispatch fact per event, each proved apart from any invariant so
     that the dispatch table is unfolded in a small context. */

  lemma StepNewNote(st: State, ev: Event, titleLe: (string, string) -> bool)
    requires ev.NewNote?
    ensures Step(st, ev, titleLe) == CreateNote(st, ev.id, ev.now, titleLe)
  {
  }

  lemma StepScreenshot(st: State, ev: Event, titleLe: (string, string) -> bool)
    requires ev.Screenshot?
    ensures Step(st, ev, titleLe) == InsertCapturedNote(st, ev.id, ev.title, ev.content, ev.now, titleLe)
  {
  }

  lemma StepDeleteNote(st: State, ev: Event, titleLe: (string, string) -> bool)
    requires ev.DeleteNote?
    ensures Step(st, ev, titleLe) == DeleteCurrent(st, ev.now, titleLe)
  {
  }

  lemma StepRestoreNote(st: State, ev: Event, titleLe: (string, string) -> bool)
    requires ev.RestoreNote?
    ensures Step(st, ev, titleLe) == Restore(st, ev.id, ev.now, titleLe)
  {
  }

  lemma StepPurgeNote(st: State, ev: Event, titleLe: (string, string) -> bool)
    requires ev.PurgeNote?
    ensures Step(st, ev, titleLe) == PermanentDelete(st, ev.id, ev.confirmed, titleLe)
  {
  }

  lemma StepPinClick(st: State, ev: Event, titleLe: (string, string) -> bool)
    requires ev.PinClick?
    ensures Step(st, ev, titleLe) == TogglePin(st, ev.id, ev.now, titleLe)
  {
  }

  lemma StepNoteClick(st: State, ev: Event, titleLe: (string, string) -> bool)
    requires ev.NoteClick?
    ensures Step(st, ev, titleLe) == SelectNote(st, ev.id, titleLe)
  {
  }

  lemma StepTimerFired(st: State, ev: Event, titleLe: (string, string) -> bool)
    requires ev.TimerFired?
    ensures Step(st, ev, titleLe) == FlushEdit(st, ev.title, ev.content, ev.now, titleLe)
  {
  }

  lemma StepTyped(st: State, ev: Event, titleLe: (string, string) -> bool)
    requires ev.Typed?
    ensures Step(st, ev, titleLe) == Autosave(st, ev.editedTitle, ev.editedContent, ev.editedAt, titleLe)
  {
  }

  lemma StepSortChange(st: State, ev: Event, titleLe: (string, string) -> bool)
    requires ev.SortChange?
    ensures Step(st, ev, titleLe) == SetSortOrder(st, ev.mode, titleLe)
  {
  }

  lemma StepSearchInput(st: State, ev: Event, titleLe: (string, string) -> bool)
    requires ev.SearchInput?
    ensures Step(st, ev, titleLe) == SetQuery(st, ev.raw, titleLe)
  {
  }

  lemma StepThemeClick(st: State, ev: Event, titleLe: (string, string) -> bool)
    requires ev.ThemeClick?
    ensures Step(st, ev, titleLe) == ToggleTheme(st)
  {
  }

  lemma StepOpenBin(st: State, ev: Event, titleLe: (string, string) -> bool)
    requires ev.OpenBin?
    ensures Step(st, ev, titleLe) == ShowRecycleBinView(st, titleLe)
  {
  }

  lemma StepBackToNotes(st: State, ev: Event, titleLe: (string, string) -> bool)
    requires ev.BackToNotes?
    ensures Step(st, ev, titleLe) == ShowEditorView(st, titleLe)
  {
  }

  lemma {:induction false} RunValid(st: State, evs: seq<Event>, titleLe: (string, string) -> bool)
    requires TotalPreorder(titleLe) && Valid(st, titleLe) && AllowedRun(st, evs, titleLe)
    ensures Valid(Run(st, evs, titleLe), titleLe)
    decreases |evs|
  {
    if |evs| > 0 {
      StepValid(st, evs[0], titleLe);
      RunValid(Step(st, evs[0], titleLe), evs[1..], titleLe);
    }
  }

  /** Starting from nothing gives a valid state. */
  lemma StartEmptyValid(s0: State, id: int, now: int, titleLe: (string, string) -> bool)
    requires s0.notes == [] && s0.deleted == [] && !s0.binView
    ensures Valid(StartEmpty(s0, id, now, titleLe), titleLe)
  {
    var r := StartEmpty(s0, id, now, titleLe);
    assert r.notes + r.deleted == [EmptyNote(id, now)];
    assert Ids([EmptyNote(id, now)]) == [id];
  }

  /** Starting from stored notes with unique ids gives a valid state. */
  lemma StartStoredValid(s0: State, titleLe: (string, string) -> bool)
    requires TotalPreorder(titleLe) && UniqueIds(s0.notes + s0.deleted) && !s0.binView
    ensures Valid(StartStored(s0, titleLe), titleLe)
  {
    var sorted := SortNotes(s0.notes, s0.sortOrder, titleLe);
    RenderSorted(s0.(notes := sorted, current := RepairSelection(sorted, s0.current)), titleLe);
    var r := StartStored(s0, titleLe);
    UniqueWhenFewer(r.notes, r.deleted, s0.notes, s0.deleted);
  }

  /** Loading a snapshot whose ids are unique gives a valid state. */
  lemma LoadValid(snap: Snapshot, id: int, now: int, titleLe: (string, string) -> bool)
    requires TotalPreorder(titleLe)
    requires UniqueIds(snap.notes.GetOr([]) + snap.deletedNotes.GetOr([]))
    ensures Valid(Load(snap, id, now, titleLe), titleLe)
  {
    var s0 := Initial().(
      notes := snap.notes.GetOr([]),
      deleted := snap.deletedNotes.GetOr([]),
      sortOrder := LoadedSortOrder(snap.sortOrder),
      theme := Theme.LoadedTheme(snap.theme));
    if s0.notes == [] && s0.deleted == [] {
      StartEmptyValid(s0, id, now, titleLe);
    } else {
      StartStoredValid(s0, titleLe);
    }
  }

  /** Whatever the user does after start-up, no id is ever shared by two
      notes, the bin view never carries a selection, a selection always
      names an active note, and the list is in order for the sort mode. */
  lemma Lifetime(snap: Snapshot, id: int, now: int, evs: seq<Event>, titleLe: (string, string) -> bool)
    requires TotalPreorder(titleLe)
    requires UniqueIds(snap.notes.GetOr([]) + snap.deletedNotes.GetOr([]))
    requires AllowedRun(Load(snap, id, now, titleLe), evs, titleLe)
    ensures var r := Run(Load(snap, id, now, titleLe), evs, titleLe);
      && UniqueIds(r.notes + r.deleted)
      && (r.binView ==> r.current.None?)
      && (r.current.Some? ==> r.current.value in IdBag(r.notes))
      && Sorted(r.notes, NoteOrder(r.sortOrder, titleLe))
  {
    LoadValid(snap, id, now, titleLe);
    RunValid(Load(snap, id, now, titleLe), evs, titleLe);
  }
}

=== FILE: notes.dfy ===
/** A note and the operations on sequences of notes that every handler of the
    store shares: id lookup, the list ordering and the recycle-bin ordering. */
module Notes {
  import opened Sorting

  /** `id` is the creation time in milliseconds; `content` is the editor's raw
      HTML markup. */
  datatype Note = Note(id: int, title: string, content: string, isPinned: bool, lastModified: int)

  /** The ids of `s`, position by position. */
  function Ids(s: seq<Note>): (r: seq<int>)
    ensures |r| == |s|
    ensures forall i :: 0 <= i < |s| ==> r[i] == s[i].id
  {
    seq(|s|, i requires 0 <= i < |s| => s[i].id)
  }

  /** How many notes of `s` carry each id. */
  function IdBag(s: seq<Note>): multiset<int>
  {
    multiset(Ids(s))
  }

  /** No id is carried by two notes of `s`. */
  ghost predicate UniqueIds(s: seq<Note>)
  {
    forall id :: IdBag(s)[id] <= 1
  }

  /** `findIndex(n => n.id === id)`: the first position holding `id`, or -1. */
  function FindIndex(s: seq<Note>, id: int): (i: int)
    ensures -1 <= i < |s|
    ensures i >= 0 ==> s[i].id == id
    ensures forall j :: 0 <= j < |s| && (i == -1 || j < i) ==> s[j].id != id
    ensures i == -1 <==> id !in IdBag(s)
  {
    var i := FindFrom(s, id);
    if i >= 0 then
      assert Ids(s)[i] == id;
      i
    else
      assert id !in Ids(s);
      i
  }

  /** The search itself, position by position. */
  function FindFrom(s: seq<Note>, id: int): (i: int)
    ensures -1 <= i < |s|
    ensures i >= 0 ==> s[i].id == id
    ensures forall j :: 0 <= j < |s| && (i == -1 || j < i) ==> s[j].id != id
    decreases |s|
  {
    if |s| == 0 then -1
    else if s[0].id == id then 0
    else
      var k := FindFrom(s[1..], id);
      if k == -1 then -1 else k + 1
  }

  /** The ids of a non-empty sequence: its head's and its tail's. */
  lemma IdBagCons(s: seq<Note>)
    requires |s| > 0
    ensures IdBag(s) == multiset{s[0].id} + IdBag(s[1..])
  {
    assert Ids(s) == [s[0].id] + Ids(s[1..]);
  }

  /** `splice(i, 1)`: the sequence without position `i`. */
  function RemoveAt(s: seq<Note>, i: int): (r: seq<Note>)
    requires 0 <= i < |s|
    ensures |r| == |s| - 1
    ensures IdBag(r) == IdBag(s) - multiset{s[i].id}
    ensures multiset(r) == multiset(s) - multiset{s[i]}
  {
    RemoveAtIds(s, i);
    s[..i] + s[i + 1..]
  }

  /** What is left keeps the notes before `i` in place and shifts the ones
      after it down by one. */
  lemma RemoveAtShift(s: seq<Note>, i: int)
    requires 0 <= i < |s|
    ensures var r := RemoveAt(s, i);
      && (forall j :: 0 <= j < i ==> r[j] == s[j])
      && (forall j :: i <= j < |r| ==> r[j] == s[j + 1])
  {
  }

  /** `filter(n => n.id !== id)`: every note carrying `id` dropped. */
  function RemoveId(s: seq<Note>, id: int): (r: seq<Note>)
    ensures |r| <= |s|
    ensures forall n :: n in r <==> n in s && n.id != id
    decreases |s|
  {
    if |s| == 0 then []
    else (if s[0].id == id then [] else [s[0]]) + RemoveId(s[1..], id)
  }

  /** Dropping an id distributes over concatenation; with the one-note case
      this pins the result down to the kept notes in their original order. */
  lemma {:induction false} RemoveIdConcat(a: seq<Note>, b: seq<Note>, id: int)
    ensures RemoveId(a + b, id) == RemoveId(a, id) + RemoveId(b, id)
    decreases |a|
  {
    if |a| == 0 {
      assert a + b == b;
    } else {
      assert (a + b)[0] == a[0];
      assert (a + b)[1..] == a[1..] + b;
      RemoveIdConcat(a[1..], b, id);
    }
  }

  lemma RemoveIdSingle(n: Note, id: int)
    ensures RemoveId([n], id) == if n.id == id then [] else [n]
  {
    assert [n][1..] == [];
  }

  lemma RemoveAtIds(s: seq<Note>, i: int)
    requires 0 <= i < |s|
    ensures IdBag(s[..i] + s[i + 1..]) == IdBag(s) - multiset{s[i].id}
    ensures multiset(s[..i] + s[i + 1..]) == multiset(s) - multiset{s[i]}
  {
    var a, b := s[..i], s[i + 1..];
    assert s == a + ([s[i]] + b);
    IdsConcat(a, [s[i]] + b);
    IdsConcat([s[i]], b);
    IdsConcat(a, b);
    assert Ids([s[i]]) == [s[i].id];
  }

  lemma IdsConcat(a: seq<Note>, b: seq<Note>)
    ensures Ids(a + b) == Ids(a) + Ids(b)
    ensures IdBag(a + b) == IdBag(a) + IdBag(b)
  {
    assert Ids(a + b) == Ids(a) + Ids(b);
  }

  /** Replacing a note by one with the same id leaves the ids untouched. */
  lemma IdsUpdate(s: seq<Note>, i: int, n: Note)
    requires 0 <= i < |s| && n.id == s[i].id
    ensures Ids(s[i := n]) == Ids(s)
  {
  }

  /** With unique ids, looking a note's id up finds that very note. */
  lemma UniqueIdsFind(s: seq<Note>, n: Note)
    requires UniqueIds(s) && n in s
    ensures n.id in IdBag(s) && s[FindIndex(s, n.id)] == n
  {
    var j :| 0 <= j < |s| && s[j] == n;
    assert Ids(s)[j] == n.id;
    var i := FindIndex(s, n.id);
    assert Ids(s)[i] == n.id;
    TwoPositions(Ids(s), i, j);
  }

  /** A value found at two different positions occurs at least twice. */
  lemma TwoPositions(ids: seq<int>, i: int, j: int)
    requires 0 <= i <= j < |ids| && ids[i] == ids[j]
    ensures i < j ==> multiset(ids)[ids[j]] >= 2
  {
    var v := ids[j];
    assert ids == ids[..j] + ids[j..];
    assert ids[j..][0] == v;
    assert multiset(ids)[v] == multiset(ids[..j])[v] + multiset(ids[j..])[v];
    assert i < j ==> ids[..j][i] == v;
  }

  /** Replacing one note swaps exactly that note in the multiset. */
  lemma UpdateMultiset(s: seq<Note>, i: int, n: Note)
    requires 0 <= i < |s|
    ensures multiset(s[i := n]) == multiset(s) - multiset{s[i]} + multiset{n}
  {
    var a, b := s[..i], s[i + 1..];
    assert s == a + [s[i]] + b;
    assert s[i := n] == a + [n] + b;
    forall y
      ensures multiset(s[i := n])[y] == (multiset(s) - multiset{s[i]} + multiset{n})[y]
    {
    }
  }

  /** Dropping an id removes all its occurrences and nothing else. */
  lemma {:induction false} IdBagRemoveId(s: seq<Note>, id: int)
    ensures IdBag(RemoveId(s, id)) == IdBag(s)[id := 0]
    decreases |s|
  {
    if |s| == 0 {
    } else {
      var tail := RemoveId(s[1..], id);
      var head := if s[0].id == id then [] else [s[0]];
      IdBagRemoveId(s[1..], id);
      IdsConcat(head, tail);
      assert IdBag(head) == if s[0].id == id then multiset{} else multiset{s[0].id} by {
        assert Ids(head) == if s[0].id == id then [] else [s[0].id];
      }
      IdBagCons(s);
      DropAll(IdBag(head), s[0].id, IdBag(s[1..]), id);
    }
  }

  /** Clearing `id` commutes with adding one occurrence of `x`, which
      vanishes when it is `id`. */
  lemma DropAll(h: multiset<int>, x: int, m: multiset<int>, id: int)
    requires h == if x == id then multiset{} else multiset{x}
    ensures h + m[id := 0] == (multiset{x} + m)[id := 0]
  {
    var lhs, rhs := h + m[id := 0], (multiset{x} + m)[id := 0];
    forall y
      ensures lhs[y] == rhs[y]
    {
    }
  }

  /** Reordering notes does not change which ids they carry. */
  lemma {:induction false} IdBagPermutation(a: seq<Note>, b: seq<Note>)
    requires multiset(a) == multiset(b)
    ensures IdBag(a) == IdBag(b)
    decreases |a|
  {
    if |a| == 0 {
      assert |b| == |multiset(b)| == 0;
    } else {
      var x := a[0];
      assert x in multiset(b);
      var k :| 0 <= k < |b| && b[k] == x;
      var a', b' := RemoveAt(a, 0), RemoveAt(b, k);
      assert multiset(a') == multiset(b');
      IdBagPermutation(a', b');
      IdBagRemoveAt(a, 0);
      IdBagRemoveAt(b, k);
    }
  }

  /** Taking the note at `i` out takes exactly one occurrence of its id. */
  lemma IdBagRemoveAt(s: seq<Note>, i: int)
    requires 0 <= i < |s|
    ensures IdBag(s) == IdBag(RemoveAt(s, i)) + multiset{s[i].id}
  {
    var m := IdBag(s);
    assert Ids(s)[i] == s[i].id;
    assert m == m - multiset{s[i].id} + multiset{s[i].id} by {
      forall y
        ensures m[y] == (m - multiset{s[i].id} + multiset{s[i].id})[y]
      {
      }
    }
  }

  // ----- Ordering of the note list -----

  /** `compare(a, b) <= 0` for the comparator `sortNotes` passes to `sort`.
      `titleLe(x, y)` stands for `x.localeCompare(y) <= 0`. */
  predicate NoteBefore(mode: string, titleLe: (string, string) -> bool, a: Note, b: Note)
  {
    if a.isPinned != b.isPinned then a.isPinned
    else if mode == "title-az" then titleLe(a.title, b.title)
    else if mode == "date-asc" then a.lastModified - b.lastModified <= 0
    else b.lastModified - a.lastModified <= 0
  }

  function NoteOrder(mode: string, titleLe: (string, string) -> bool): (Note, Note) -> bool
  {
    (a: Note, b: Note) => NoteBefore(mode, titleLe, a, b)
  }

  /** `sortNotes`: the stable sort of the list under the current sort mode. */
  function SortNotes(notes: seq<Note>, mode: string, titleLe: (string, string) -> bool): (r: seq<Note>)
    ensures |r| == |notes|
    ensures multiset(r) == multiset(notes)
    ensures IdBag(r) == IdBag(notes)
  {
    var r := SortBy(notes, NoteOrder(mode, titleLe));
    IdBagPermutation(r, notes);
    r
  }

  /** A single note is already sorted. */
  lemma SortNotesSingle(n: Note, mode: string, titleLe: (string, string) -> bool)
    ensures SortNotes([n], mode, titleLe) == [n]
  {
    assert [n][1..] == [];
  }

  /** With a total preorder on titles, the note comparator is consistent in
      every mode, known or not. */
  lemma NoteOrderTotalPreorder(mode: string, titleLe: (string, string) -> bool)
    requires TotalPreorder(titleLe)
    ensures TotalPreorder(NoteOrder(mode, titleLe))
  {
    var le := NoteOrder(mode, titleLe);
    forall a, b, c | le(a, b) && le(b, c)
      ensures le(a, c)
    {
      if a.isPinned == b.isPinned && b.isPinned == c.isPinned && mode == "title-az" {
        assert titleLe(a.title, b.title) && titleLe(b.title, c.title);
      }
    }
    forall a, b
      ensures le(a, b) || le(b, a)
    {
      if a.isPinned == b.isPinned && mode == "title-az" {
        assert titleLe(a.title, b.title) || titleLe(b.title, a.title);
      }
    }
  }

  /** The list order: pinned notes first; within each group ascending by title
      for `title-az`, ascending by `lastModified` for `date-asc`, and
      descending by `lastModified` for `date-desc` and any other mode. The
      result is a permutation of the input, notes that compare equal keep
      their relative order, and sorting again changes nothing. */
  lemma SortNotesSpec(notes: seq<Note>, mode: string, titleLe: (string, string) -> bool)
    requires TotalPreorder(titleLe)
    ensures var r := SortNotes(notes, mode, titleLe);
      && multiset(r) == multiset(notes)
      && (forall i, j :: 0 <= i < j < |r| && r[j].isPinned ==> r[i].isPinned)
      && (forall i, j :: 0 <= i < j < |r| && r[i].isPinned == r[j].isPinned ==>
            if mode == "title-az" then titleLe(r[i].title, r[j].title)
            else if mode == "date-asc" then r[i].lastModified <= r[j].lastModified
            else r[i].lastModified >= r[j].lastModified)
      && (forall z ::
            TiedWith(r, z, NoteOrder(mode, titleLe)) == TiedWith(notes, z, NoteOrder(mode, titleLe)))
      && SortNotes(r, mode, titleLe) == r
  {
    var le := NoteOrder(mode, titleLe);
    var r := SortNotes(notes, mode, titleLe);
    NoteOrderTotalPreorder(mode, titleLe);
    SortBySorted(notes, le);
    SortByIdempotent(notes, le);
    forall i, j | 0 <= i < j < |r|
      ensures le(r[i], r[j])
    {
    }
    forall z
      ensures TiedWith(r, z, le) == TiedWith(notes, z, le)
    {
      SortByStable(notes, z, le);
    }
  }

  // ----- Ordering of the recycle bin -----

  /** `(a, b) => b.lastModified - a.lastModified`, as "may stay before". */
  function BinOrder(): (Note, Note) -> bool
  {
    (a: Note, b: Note) => b.lastModified - a.lastModified <= 0
  }

  /** The order in which the recycle bin lists the deleted notes: a sorted copy,
      the deleted collection itself is not reordered. */
  function BinListing(deleted: seq<Note>): (r: seq<Note>)
    ensures multiset(r) == multiset(deleted)
  {
    SortBy(deleted, BinOrder())
  }

  /** The bin lists the most recently deleted notes first, every deleted note
      exactly once, ties in the order of the deleted collection. */
  lemma BinListingSpec(deleted: seq<Note>)
    ensures var r := BinListing(deleted);
      && multiset(r) == multiset(deleted)
      && (forall i, j :: 0 <= i < j < |r| ==> r[i].lastModified >= r[j].lastModified)
      && (forall z :: TiedWith(r, z, BinOrder()) == TiedWith(deleted, z, BinOrder()))
  {
    var le := BinOrder();
    var r := BinListing(deleted);
    SortBySorted(deleted, le);
    forall i, j | 0 <= i < j < |r|
      ensures r[i].lastModified >= r[j].lastModified
    {
      assert le(r[i], r[j]);
    }
    forall z
      ensures TiedWith(r, z, le) == TiedWith(deleted, z, le)
    {
      SortByStable(deleted, z, le);
    }
  }
}

=== FILE: properties.dfy ===
/** Properties that relate several events of the note store, and small
    worked examples of its behaviour. */
module StoreProperties {
  import opened Wrappers
  import opened Sorting
  import opened Notes
  import opened Store
  import opened Lifecycle

  /** Loading a non-empty snapshot selects the first note of the sorted
      list, since the selection starts out empty. */
  lemma LoadSelectsFirst(snap: Snapshot, id: int, now: int, titleLe: (string, string) -> bool)
    requires TotalPreorder(titleLe)
    requires snap.notes.GetOr([]) != []
    ensures var r := Load(snap, id, now, titleLe);
      && r.current == Some(r.notes[0].id)
      && r.notes == SortNotes(snap.notes.GetOr([]), r.sortOrder, titleLe)
  {
    var r := Load(snap, id, now, titleLe);
    SortNotesSpec(snap.notes.GetOr([]), r.sortOrder, titleLe);
  }

  /** Deleting the selected note and opening the bin leaves that note,
      stamped, at the front of the bin; its id was not in the bin before. */
  lemma DeletedToBinFront(st: State, t1: int, titleLe: (string, string) -> bool)
    requires Consistent(st) && !st.binView && Selected(st.current) && |st.notes| > 1
    ensures var x := st.current.value;
      var n := st.notes[FindIndex(st.notes, x)];
      var s2 := ShowRecycleBinView(DeleteCurrent(st, t1, titleLe), titleLe);
      && s2.binView && s2.current == None
      && s2.deleted == [n.(lastModified := t1)] + st.deleted
      && FindIndex(s2.deleted, x) == 0
      && multiset(s2.notes) == multiset(st.notes) - multiset{n}
      && x !in IdBag(st.deleted)
  {
    var x := st.current.value;
    var s2 := ShowRecycleBinView(DeleteCurrent(st, t1, titleLe), titleLe);
    assert Ids(s2.deleted)[0] == x;
    IdsConcat(st.notes, st.deleted);
    assert IdBag(st.notes + st.deleted)[x] <= 1;
  }

  /** Restoring the id at the front of the bin takes exactly that entry. */
  lemma RestoreFirst(s: State, x: int, t2: int, titleLe: (string, string) -> bool)
    requires s.binView && |s.deleted| > 0 && s.deleted[0].id == x
    ensures var s3 := Restore(s, x, t2, titleLe);
      && s3.current == Some(x) && !s3.binView
      && multiset(s3.notes) == multiset(s.notes) + multiset{s.deleted[0].(lastModified := t2)}
      && multiset(s3.deleted) == multiset(s.deleted) - multiset{s.deleted[0]}
      && IdBag(s3.deleted) == IdBag(s.deleted) - multiset{x}
  {
    assert Ids(s.deleted)[0] == x;
  }

  /** Deleting the selected note, opening the bin and restoring it brings the
      note back to the list, selected, with only its time stamp renewed; the
      bin is as it was before, without any trace of the note. */
  lemma DeleteThenRestore(st: State, t1: int, t2: int, titleLe: (string, string) -> bool)
    requires Consistent(st) && !st.binView && Selected(st.current) && |st.notes| > 1
    ensures var x := st.current.value;
      var n := st.notes[FindIndex(st.notes, x)];
      var s3 := Restore(ShowRecycleBinView(DeleteCurrent(st, t1, titleLe), titleLe), x, t2, titleLe);
      && s3.current == Some(x) && !s3.binView
      && multiset(s3.notes) == multiset(st.notes) - multiset{n} + multiset{n.(lastModified := t2)}
      && s3.deleted == st.deleted
      && x !in IdBag(s3.deleted)
  {
    var x := st.current.value;
    var n := st.notes[FindIndex(st.notes, x)];
    var s2 := ShowRecycleBinView(DeleteCurrent(st, t1, titleLe), titleLe);
    DeletedToBinFront(st, t1, titleLe);
    RestoreFirst(s2, x, t2, titleLe);
    var s3 := Restore(s2, x, t2, titleLe);
    IdsConcat([n.(lastModified := t1)], st.deleted);
    assert FindIndex(s2.deleted, x) == 0;
    assert s3 == MoveFromBin(s2, 0, t2, titleLe);
    assert s3.deleted == RemoveAt(s2.deleted, 0) == st.deleted;
  }

  /** Write suppression: once a flush has written the editor's values, a
      second flush of the same values changes nothing, not even the time
      stamp. */
  lemma FlushTwiceIsFlushOnce(st: State, title: string, content: string, t1: int, t2: int,
                              titleLe: (string, string) -> bool)
    requires UniqueIds(st.notes)
    ensures var r1 := FlushEdit(st, title, content, t1, titleLe);
      FlushEdit(r1, title, content, t2, titleLe) == r1
  {
    var r1 := FlushEdit(st, title, content, t1, titleLe);
    if r1 != st {
      var i := FindIndex(st.notes, st.current.value);
      assert r1 == FlushAt(st, i, title, content, t1, titleLe);
      FlushedFound(st, i, title, content, t1, titleLe, r1);
      var j := FindIndex(r1.notes, st.current.value);
      assert FlushAt(r1, j, title, content, t2, titleLe) == r1;
    }
  }

  /** After a flush that changed the note at `i`, looking its id up finds the
      written note. */
  lemma FlushedFound(st: State, i: int, title: string, content: string, t1: int,
                     titleLe: (string, string) -> bool, r1: State)
    requires UniqueIds(st.notes) && 0 <= i < |st.notes|
    requires st.notes[i].title != title || st.notes[i].content != content
    requires r1 == FlushAt(st, i, title, content, t1, titleLe)
    ensures UniqueIds(r1.notes) && st.notes[i].id in IdBag(r1.notes)
    ensures r1.notes[FindIndex(r1.notes, st.notes[i].id)].title == title
    ensures r1.notes[FindIndex(r1.notes, st.notes[i].id)].content == content
  {
    var e := st.notes[i].(title := title, content := content, lastModified := t1);
    assert e in multiset(r1.notes);
    UniqueIdsFind(r1.notes, e);
  }

  /** After a pin toggle the note found under the same id is the flipped,
      stamped one. */
  lemma PinnedFound(st: State, id: int, t1: int, titleLe: (string, string) -> bool)
    requires UniqueIds(st.notes) && id in IdBag(st.notes)
    ensures var n := st.notes[FindIndex(st.notes, id)];
      var r1 := TogglePin(st, id, t1, titleLe);
      && UniqueIds(r1.notes) && id in IdBag(r1.notes)
      && r1.notes[FindIndex(r1.notes, id)] == n.(isPinned := !n.isPinned, lastModified := t1)
  {
    var n := st.notes[FindIndex(st.notes, id)];
    var p := n.(isPinned := !n.isPinned, lastModified := t1);
    var r1 := TogglePin(st, id, t1, titleLe);
    assert p in multiset(r1.notes);
    UniqueIdsFind(r1.notes, p);
  }

  /** Replacing `n` by `p` and then `p` by `q` is replacing `n` by `q`. */
  lemma ReplaceTwice<T>(m: multiset<T>, n: T, p: T, q: T)
    ensures m - multiset{n} + multiset{p} - multiset{p} + multiset{q} == m - multiset{n} + multiset{q}
  {
    forall y
      ensures (m - multiset{n} + multiset{p} - multiset{p} + multiset{q})[y]
           == (m - multiset{n} + multiset{q})[y]
    {
    }
  }

  /** Pinning a note twice leaves its pin as it was; only its time stamp
      moves on. */
  lemma PinTwice(st: State, id: int, t1: int, t2: int, titleLe: (string, string) -> bool)
    requires UniqueIds(st.notes) && id in IdBag(st.notes)
    ensures var n := st.notes[FindIndex(st.notes, id)];
      var r2 := TogglePin(TogglePin(st, id, t1, titleLe), id, t2, titleLe);
      multiset(r2.notes) == multiset(st.notes) - multiset{n} + multiset{n.(lastModified := t2)}
  {
    var n := st.notes[FindIndex(st.notes, id)];
    var p := n.(isPinned := !n.isPinned, lastModified := t1);
    PinnedFound(st, id, t1, titleLe);
    assert p.(isPinned := !p.isPinned, lastModified := t2) == n.(lastModified := t2);
    ReplaceTwice(multiset(st.notes), n, p, n.(lastModified := t2));
  }

  /** A list already in order for the sort mode, as in every valid state, is
      drawn again without any change to the state. */
  lemma RenderIdle(st: State, titleLe: (string, string) -> bool)
    requires Sorted(st.notes, NoteOrder(st.sortOrder, titleLe))
    ensures Render(st, titleLe) == st
  {
    SortBySortedUnchanged(st.notes, NoteOrder(st.sortOrder, titleLe));
  }

  /** The events that only redraw the list leave the active notes exactly as
      they were, order included: a permanent delete, opening the bin and
      typing in the search box. */
  lemma RedrawKeepsList(st: State, id: int, confirmed: bool, raw: string,
                        titleLe: (string, string) -> bool)
    requires Valid(st, titleLe)
    ensures PermanentDelete(st, id, confirmed, titleLe).notes == st.notes
    ensures ShowRecycleBinView(st, titleLe).notes == st.notes
    ensures SetQuery(st, raw, titleLe).notes == st.notes
  {
    RenderIdle(st, titleLe);
    RenderIdle(st.(binView := true, current := None), titleLe);
    RenderIdle(st.(query := raw), titleLe);
    if st.binView && confirmed {
      RenderIdle(st.(deleted := RemoveId(st.deleted, id)), titleLe);
    }
  }

  /** While the bin is shown there is no selection, so typing, a pending
      flush and the delete button all leave the state alone. */
  lemma BinIgnoresEditing(st: State, title: string, content: string, now: int,
                          titleLe: (string, string) -> bool)
    requires Consistent(st) && st.binView
    ensures Autosave(st, title, content, now, titleLe) == st
    ensures FlushEdit(st, title, content, now, titleLe) == st
    ensures DeleteCurrent(st, now, titleLe) == st
  {
  }

  /** "Back to Notes" does not give back a selection: after opening the bin
      and leaving it, the editor shows no note although the list has some. */
  lemma BackToNotesSelectsNothing(st: State, titleLe: (string, string) -> bool)
    requires !st.binView && |st.notes| > 0
    ensures var r := ShowEditorView(ShowRecycleBinView(st, titleLe), titleLe);
      && !r.binView && |r.notes| > 0 && r.current == None
  {
  }

  /** A pinned note comes first although it is older. */
  lemma PinnedFirstExample(titleLe: (string, string) -> bool)
    ensures var a := Note(1, "A", "", false, 100);
      var b := Note(2, "B", "", true, 50);
      SortNotes([a, b], "date-desc", titleLe) == [b, a]
  {
    var a := Note(1, "A", "", false, 100);
    var b := Note(2, "B", "", true, 50);
    assert [a, b][1..] == [b];
    assert [b][1..] == [];
  }

  /** Two notes already in list order are left as they are. */
  lemma SortTwoInOrder(a: Note, c: Note, mode: string, titleLe: (string, string) -> bool)
    requires NoteBefore(mode, titleLe, a, c)
    ensures SortNotes([a, c], mode, titleLe) == [a, c]
  {
    assert [a, c][1..] == [c] && [c][1..] == [];
  }

  /** Removing the middle of three notes leaves the outer two. */
  lemma RemoveMiddle(a: Note, b: Note, c: Note)
    ensures RemoveAt([a, b, c], 1) == [a, c]
  {
    var r := RemoveAt([a, b, c], 1);
    RemoveAtShift([a, b, c], 1);
    assert r[0] == a && r[1] == c;
  }

  /** With the middle of three notes selected, delete takes the note at
      index 1. */
  lemma DeleteMiddleFindsIndex(st: State, a: Note, b: Note, c: Note, now: int,
                               titleLe: (string, string) -> bool)
    requires st.notes == [a, b, c] && st.current == Some(b.id) && b.id != 0 && a.id != b.id
    ensures DeleteCurrent(st, now, titleLe) == MoveToBin(st, 1, now, titleLe)
  {
    assert FindIndex(st.notes, b.id) == 1 by {
      assert st.notes[1..][0].id == b.id;
    }
  }

  /** Deleting the middle of three notes selects the note that followed it
      (not the one before it), and the list keeps the other two in order. */
  lemma DeleteMiddleSelectsSuccessor(st: State, a: Note, b: Note, c: Note, now: int,
                                     titleLe: (string, string) -> bool)
    requires st.notes == [a, b, c] && st.current == Some(b.id) && b.id != 0 && a.id != b.id
    requires NoteBefore(st.sortOrder, titleLe, a, c)
    ensures var r := DeleteCurrent(st, now, titleLe);
      && r.current == Some(c.id)
      && r.deleted == [b.(lastModified := now)] + st.deleted
      && r.notes == [a, c]
  {
    DeleteMiddleFindsIndex(st, a, b, c, now, titleLe);
    MoveToBinNotes(st, 1, now, titleLe);
    RemoveMiddle(a, b, c);
    SortTwoInOrder(a, c, st.sortOrder, titleLe);
    var r := MoveToBin(st, 1, now, titleLe);
    assert r.notes == [a, c];
  }
}

=== FILE: search.dfy ===
/** The search box filter applied to the note list before it is drawn. */
module Search {
  import opened JsText
  import opened Notes

  /** `searchInput.value.toLowerCase().trim()`. */
  function NormalizeQuery(raw: string): (q: string)
    ensures exists k :: TrimmedAt(ToLower(raw), q, k)
    ensures |q| <= |raw|
    ensures |q| > 0 ==> !IsWhitespace(q[0]) && !IsWhitespace(q[|q| - 1])
    ensures |q| == 0 <==> forall i :: 0 <= i < |raw| ==> IsWhitespace(raw[i])
  {
    var low := ToLower(raw);
    assert forall i :: 0 <= i < |raw| ==> (IsWhitespace(low[i]) <==> IsWhitespace(raw[i]));
    Trim(low)
  }

  /** The lower-cased title or the lower-cased raw markup contains `q`. */
  predicate Matches(q: string, n: Note)
  {
    Includes(ToLower(n.title), q) || Includes(ToLower(n.content), q)
  }

  /** `notes.filter(n => Matches(q, n))`. */
  function KeepMatching(notes: seq<Note>, q: string): (r: seq<Note>)
    ensures |r| <= |notes|
    ensures multiset(r) <= multiset(notes)
    ensures forall n :: n in r <==> n in notes && Matches(q, n)
    decreases |notes|
  {
    if |notes| == 0 then []
    else
      assert notes == [notes[0]] + notes[1..];
      (if Matches(q, notes[0]) then [notes[0]] else []) + KeepMatching(notes[1..], q)
  }

  /** The notes the list shows for the text typed in the search box: all of
      them when the normalised query is empty, otherwise exactly the matching
      ones. */
  function FilterNotes(notes: seq<Note>, raw: string): (r: seq<Note>)
    ensures NormalizeQuery(raw) == "" ==> r == notes
    ensures NormalizeQuery(raw) != "" ==>
      forall n :: n in r <==> n in notes && Matches(NormalizeQuery(raw), n)
    ensures multiset(r) <= multiset(notes)
  {
    var q := NormalizeQuery(raw);
    if q == "" then notes else KeepMatching(notes, q)
  }

  /** Filtering distributes over concatenation; with the one-note case this
      pins the result down to the matching notes in their original order. */
  lemma {:induction false} KeepMatchingConcat(a: seq<Note>, b: seq<Note>, q: string)
    ensures KeepMatching(a + b, q) == KeepMatching(a, q) + KeepMatching(b, q)
    decreases |a|
  {
    if |a| == 0 {
      assert a + b == b;
    } else {
      assert (a + b)[0] == a[0];
      assert (a + b)[1..] == a[1..] + b;
      KeepMatchingConcat(a[1..], b, q);
    }
  }

  lemma KeepMatchingSingle(n: Note, q: string)
    ensures KeepMatching([n], q) == if Matches(q, n) then [n] else []
  {
    assert [n][1..] == [];
  }

  /** A non-empty query keeps a note exactly when the query occurs as a
      substring of its lower-cased title or lower-cased markup. */
  lemma FilterNotesOccurs(notes: seq<Note>, raw: string, n: Note)
    requires NormalizeQuery(raw) != ""
    ensures var q := NormalizeQuery(raw);
      n in FilterNotes(notes, raw) <==>
        n in notes && ((exists i :: OccursAt(ToLower(n.title), q, i))
                    || (exists i :: OccursAt(ToLower(n.content), q, i)))
  {
    var q := NormalizeQuery(raw);
    IncludesIffOccurs(ToLower(n.title), q);
    IncludesIffOccurs(ToLower(n.content), q);
  }

  /** A query made only of white space shows every note, in order. */
  lemma BlankQueryShowsAll(notes: seq<Note>, raw: string)
    requires forall i :: 0 <= i < |raw| ==> IsWhitespace(raw[i])
    ensures FilterNotes(notes, raw) == notes
  {
    var low := ToLower(raw);
    assert forall i :: 0 <= i < |low| ==> low[i] == raw[i];
  }

  /** Case-insensitive: the query "foo" finds the title "Foobar". */
  lemma FooFindsFoobar(notes: seq<Note>, n: Note)
    requires n in notes && n.title == "Foobar"
    ensures n in FilterNotes(notes, "foo")
  {
    assert ToLower("foo") == "foo";
    assert !IsWhitespace('f') && !IsWhitespace('o');
    TrimNoSpace("foo");
    assert ToLower("Foobar") == "foobar";
    assert OccursAt(ToLower(n.title), "foo", 0);
    FilterNotesOccurs(notes, "foo", n);
  }
}

=== FILE: sorting.dfy ===
/** A stable sort driven by a "may stay before" relation.

    `le(a, b)` stands for `compare(a, b) <= 0` of a JavaScript comparator: when
    it holds, `a` is allowed to remain in front of `b`. `Array.prototype.sort`
    is stable, so for a comparator that is a total preorder its result is the
    unique stable ordering, which `SortBy` computes by insertion. */
module Sorting {

  /** Total and transitive (hence also reflexive). */
  ghost predicate TotalPreorder<T(!new)>(le: (T, T) -> bool)
  {
    && (forall a, b :: le(a, b) || le(b, a))
    && (forall a, b, c :: le(a, b) && le(b, c) ==> le(a, c))
  }

  ghost predicate Sorted<T>(s: seq<T>, le: (T, T) -> bool)
  {
    forall i, j :: 0 <= i < j < |s| ==> le(s[i], s[j])
  }

  /** `a` and `b` compare equal: neither has to move past the other. */
  predicate Tied<T>(le: (T, T) -> bool, a: T, b: T)
  {
    le(a, b) && le(b, a)
  }

  /** The elements of `s` that compare equal to `z`, in their order in `s`. */
  function TiedWith<T>(s: seq<T>, z: T, le: (T, T) -> bool): (r: seq<T>)
    ensures |r| <= |s|
  {
    if |s| == 0 then []
    else (if Tied(le, z, s[0]) then [s[0]] else []) + TiedWith(s[1..], z, le)
  }

  /** Places `x` in front of the first element it may stay before. */
  function Insert<T>(x: T, ys: seq<T>, le: (T, T) -> bool): (r: seq<T>)
    ensures |r| == |ys| + 1
    ensures multiset(r) == multiset(ys) + multiset{x}
  {
    if |ys| == 0 then [x]
    else if le(x, ys[0]) then [x] + ys
    else
      assert ys == [ys[0]] + ys[1..];
      [ys[0]] + Insert(x, ys[1..], le)
  }

  function SortBy<T>(s: seq<T>, le: (T, T) -> bool): (r: seq<T>)
    ensures |r| == |s|
    ensures multiset(r) == multiset(s)
  {
    if |s| == 0 then []
    else
      assert s == [s[0]] + s[1..];
      Insert(s[0], SortBy(s[1..], le), le)
  }

  lemma {:induction false} InsertSorted<T(!new)>(x: T, ys: seq<T>, le: (T, T) -> bool)
    requires TotalPreorder(le)
    requires Sorted(ys, le)
    ensures Sorted(Insert(x, ys, le), le)
  {
    if |ys| == 0 {
    } else if le(x, ys[0]) {
      var r := [x] + ys;
      forall i, j | 0 <= i < j < |r|
        ensures le(r[i], r[j])
      {
        if i > 0 {
          assert r[i] == ys[i - 1] && r[j] == ys[j - 1];
        } else if j > 1 {
          assert le(ys[0], ys[j - 1]);
        }
      }
    } else {
      var t := Insert(x, ys[1..], le);
      InsertSorted(x, ys[1..], le);
      assert le(ys[0], x);
      var r := [ys[0]] + t;
      forall i, j | 0 <= i < j < |r|
        ensures le(r[i], r[j])
      {
        if i > 0 {
          assert r[i] == t[i - 1] && r[j] == t[j - 1];
        } else {
          assert r[j] in multiset(t);
          if r[j] != x {
            assert r[j] in multiset(ys[1..]);
            var k :| 0 <= k < |ys[1..]| && ys[1..][k] == r[j];
            assert le(ys[0], ys[k + 1]);
          }
        }
      }
    }
  }

  /** The result is ordered: every element may stay before every later one. */
  lemma {:induction false} SortBySorted<T(!new)>(s: seq<T>, le: (T, T) -> bool)
    requires TotalPreorder(le)
    ensures Sorted(SortBy(s, le), le)
  {
    if |s| > 0 {
      SortBySorted(s[1..], le);
      InsertSorted(s[0], SortBy(s[1..], le), le);
    }
  }

  /** An already ordered sequence is left exactly as it is. */
  lemma {:induction false} SortBySortedUnchanged<T>(s: seq<T>, le: (T, T) -> bool)
    requires Sorted(s, le)
    ensures SortBy(s, le) == s
  {
    if |s| > 0 {
      assert Sorted(s[1..], le) by {
        forall i, j | 0 <= i < j < |s[1..]|
          ensures le(s[1..][i], s[1..][j])
        {
          assert s[1..][i] == s[i + 1] && s[1..][j] == s[j + 1];
        }
      }
      SortBySortedUnchanged(s[1..], le);
      if |s| > 1 {
        assert le(s[0], s[1..][0]);
      }
      assert [s[0]] + s[1..] == s;
    }
  }

  /** Sorting twice is sorting once. */
  lemma SortByIdempotent<T(!new)>(s: seq<T>, le: (T, T) -> bool)
    requires TotalPreorder(le)
    ensures SortBy(SortBy(s, le), le) == SortBy(s, le)
  {
    SortBySorted(s, le);
    SortBySortedUnchanged(SortBy(s, le), le);
  }

  lemma {:induction false} TiedWithConcat<T>(a: seq<T>, b: seq<T>, z: T, le: (T, T) -> bool)
    ensures TiedWith(a + b, z, le) == TiedWith(a, z, le) + TiedWith(b, z, le)
  {
    if |a| == 0 {
      assert a + b == b;
    } else {
      var head := if Tied(le, z, a[0]) then [a[0]] else [];
      assert (a + b)[0] == a[0];
      assert (a + b)[1..] == a[1..] + b;
      TiedWithConcat(a[1..], b, z, le);
      assert TiedWith(a + b, z, le) == head + (TiedWith(a[1..], z, le) + TiedWith(b, z, le));
      assert TiedWith(a, z, le) == head + TiedWith(a[1..], z, le);
    }
  }

  /** Insertion only skips elements that are strictly smaller than `x`, so it
      never moves `x` past an element tied with it. */
  lemma {:induction false} InsertTiedWith<T(!new)>(x: T, ys: seq<T>, z: T, le: (T, T) -> bool)
    requires TotalPreorder(le)
    ensures TiedWith(Insert(x, ys, le), z, le)
         == (if Tied(le, z, x) then [x] else []) + TiedWith(ys, z, le)
  {
    if |ys| == 0 {
    } else if le(x, ys[0]) {
      TiedWithConcat([x], ys, z, le);
    } else {
      var y, rest := ys[0], Insert(x, ys[1..], le);
      var ty := TiedWith([y], z, le);
      assert Insert(x, ys, le) == [y] + rest;
      InsertTiedWith(x, ys[1..], z, le);
      TiedWithConcat([y], rest, z, le);
      TiedWithConcat([y], ys[1..], z, le);
      assert [y] + ys[1..] == ys;
      if Tied(le, z, x) {
        TiedBlocked(le, z, x, y);
        assert ty == [];
      }
    }
  }

  /** Whatever `x` has to move past is not tied with anything tied with `x`. */
  lemma TiedBlocked<T(!new)>(le: (T, T) -> bool, z: T, x: T, y: T)
    requires TotalPreorder(le) && Tied(le, z, x) && !le(x, y)
    ensures !Tied(le, z, y)
  {
    assert le(x, z);
  }

  /** Stability: the elements that compare equal keep their input order. */
  lemma {:induction false} SortByStable<T(!new)>(s: seq<T>, z: T, le: (T, T) -> bool)
    requires TotalPreorder(le)
    ensures TiedWith(SortBy(s, le), z, le) == TiedWith(s, z, le)
  {
    if |s| > 0 {
      SortByStable(s[1..], z, le);
      InsertTiedWith(s[0], SortBy(s[1..], le), z, le);
    }
  }
}

=== FILE: store.dfy ===
/** The note store: the state the extension keeps in module-level variables and
    one pure transition per user event.

    Every handler that ends by redrawing the side list also re-sorts the
    active collection, because drawing the list starts with `sortNotes()`,
    which sorts the array in place; `Render` is that effect. The clock and
    the fresh id are parameters (`now`, `id`), and `titleLe(x, y)` stands for
    `x.localeCompare(y) <= 0`. */
module Store {
  import opened Wrappers
  import opened Notes
  import Theme
  import Search

  /** `notes`, `deletedNotes`, `currentNoteId`, `isRecycleBinViewActive`,
      `currentSortOrder`, `currentTheme` and the search box text. */
  datatype State = State(
    notes: seq<Note>,
    deleted: seq<Note>,
    current: Option<int>,
    binView: bool,
    sortOrder: string,
    theme: string,
    query: string)

  /** Sort mode, theme and search text are as before. */
  predicate KeepsSettings(r: State, st: State)
  {
    r.sortOrder == st.sortOrder && r.theme == st.theme && r.query == st.query
  }

  /** What storage hands back; each field may be missing. */
  datatype Snapshot = Snapshot(
    notes: Option<seq<Note>>,
    deletedNotes: Option<seq<Note>>,
    sortOrder: Option<string>,
    theme: Option<string>)

  const DefaultSortOrder: string := "date-desc"

  /** The values the variables start with, before storage has answered. */
  function Initial(): (r: State)
    ensures r.notes == [] && r.deleted == [] && r.current == None && !r.binView
    ensures r.sortOrder == DefaultSortOrder && r.theme == Theme.DefaultTheme && r.query == ""
  {
    State([], [], None, false, DefaultSortOrder, Theme.DefaultTheme, "")
  }

  /** `currentNoteId` is truthy: present and not the number 0. */
  predicate Selected(current: Option<int>)
  {
    current.Some? && current.value != 0
  }

  /** A note with nothing in it, as `createNewNote` builds it. */
  function EmptyNote(id: int, now: int): (n: Note)
    ensures n.id == id && n.lastModified == now
    ensures n.title == "" && n.content == "" && !n.isPinned
  {
    Note(id, "", "", false, now)
  }

  /** The state effect of drawing the side list: the active collection is
      re-sorted under the current sort mode and nothing else changes. */
  function Render(st: State, titleLe: (string, string) -> bool): (r: State)
    ensures multiset(r.notes) == multiset(st.notes) && IdBag(r.notes) == IdBag(st.notes)
    ensures r.deleted == st.deleted && r.current == st.current && r.binView == st.binView
    ensures KeepsSettings(r, st)
  {
    st.(notes := SortNotes(st.notes, st.sortOrder, titleLe))
  }

  /** `showEditorView`: leaves the recycle bin (redrawing the list) and does
      not give back the selection the bin cleared. Outside the bin it does
      nothing. */
  function ShowEditorView(st: State, titleLe: (string, string) -> bool): (r: State)
    ensures !r.binView
    ensures !st.binView ==> r == st
    ensures multiset(r.notes) == multiset(st.notes) && IdBag(r.notes) == IdBag(st.notes)
    ensures r.deleted == st.deleted && r.current == st.current && KeepsSettings(r, st)
  {
    if !st.binView then st else Render(st.(binView := false), titleLe)
  }

  /** `showRecycleBinView`: entering the bin drops the selection; when the bin
      is already shown it is only redrawn. The side list is redrawn too. */
  function ShowRecycleBinView(st: State, titleLe: (string, string) -> bool): (r: State)
    ensures r.binView
    ensures !st.binView ==> r.current == None
    ensures st.binView ==> r.current == st.current
    ensures multiset(r.notes) == multiset(st.notes) && IdBag(r.notes) == IdBag(st.notes)
    ensures r.deleted == st.deleted && KeepsSettings(r, st)
  {
    if st.binView then Render(st, titleLe)
    else Render(st.(binView := true, current := None), titleLe)
  }

  /** `createNewNote`: leaves the bin, puts an empty note in front of the
      list, selects it and clears the search box so that it is visible. */
  function CreateNote(st: State, id: int, now: int, titleLe: (string, string) -> bool): (r: State)
    ensures multiset(r.notes) == multiset(st.notes) + multiset{EmptyNote(id, now)}
    ensures IdBag(r.notes) == IdBag(st.notes) + multiset{id}
    ensures r.current == Some(id) && !r.binView && r.query == ""
    ensures r.deleted == st.deleted && r.sortOrder == st.sortOrder && r.theme == st.theme
  {
    var s1 := ShowEditorView(st, titleLe);
    var n := EmptyNote(id, now);
    var grown := [n] + s1.notes;
    assert multiset(grown) == multiset(st.notes) + multiset{n};
    IdsConcat([n], s1.notes);
    assert IdBag(grown) == IdBag(st.notes) + multiset{id};
    Render(s1.(notes := grown, current := Some(id), query := ""), titleLe)
  }

  /** The note-insertion step of the screenshot button: the captured note goes
      in front of the list and is selected, and the editor is shown. Unlike a
      new note, the search box is left as it is. */
  function InsertCapturedNote(st: State, id: int, title: string, content: string, now: int,
                              titleLe: (string, string) -> bool): (r: State)
    ensures multiset(r.notes) == multiset(st.notes) + multiset{Note(id, title, content, false, now)}
    ensures IdBag(r.notes) == IdBag(st.notes) + multiset{id}
    ensures r.current == Some(id) && !r.binView
    ensures r.deleted == st.deleted && r.query == st.query
    ensures r.sortOrder == st.sortOrder && r.theme == st.theme
  {
    var n := Note(id, title, content, false, now);
    var grown := [n] + st.notes;
    assert multiset(grown) == multiset(st.notes) + multiset{n};
    IdsConcat([n], st.notes);
    assert IdBag(grown) == IdBag(st.notes) + multiset{id};
    var s1 := st.(notes := grown, current := Some(id));
    if s1.binView then ShowEditorView(s1, titleLe) else Render(s1, titleLe)
  }

  /** `deleteCurrentNote`. Nothing happens unless the selection is truthy and
      found. The only active note is emptied in place instead of being
      removed. Otherwise the selected note is stamped, moved to the front of
      the bin, and the selection passes to the note that followed it, or to
      the one before it when it was last. */
  function DeleteCurrent(st: State, now: int, titleLe: (string, string) -> bool): (r: State)
    ensures !Selected(st.current) || st.current.value !in IdBag(st.notes) ==> r == st
    ensures Selected(st.current) && st.current.value in IdBag(st.notes) && |st.notes| == 1 ==>
      && r.notes == [Note(st.notes[0].id, "", "", false, now)]
      && r.deleted == st.deleted && r.current == st.current
    ensures Selected(st.current) && st.current.value in IdBag(st.notes) && |st.notes| > 1 ==>
      r == MoveToBin(st, FindIndex(st.notes, st.current.value), now, titleLe)
    ensures |r.notes| + |r.deleted| == |st.notes| + |st.deleted|
    ensures IdBag(r.notes) + IdBag(r.deleted) == IdBag(st.notes) + IdBag(st.deleted)
    ensures |r.notes| > 0 <==> |st.notes| > 0
    ensures r.binView == st.binView && r.sortOrder == st.sortOrder
    ensures r.theme == st.theme && r.query == st.query
  {
    if !Selected(st.current) then st
    else
      var i := FindIndex(st.notes, st.current.value);
      if i == -1 then st
      else if |st.notes| == 1 then ResetSoleNote(st, now, titleLe)
      else MoveToBin(st, i, now, titleLe)
  }

  /** The sole active note emptied, unpinned and stamped in place. */
  function ResetSoleNote(st: State, now: int, titleLe: (string, string) -> bool): (r: State)
    requires |st.notes| == 1
    ensures r.notes == [Note(st.notes[0].id, "", "", false, now)]
    ensures IdBag(r.notes) == IdBag(st.notes)
    ensures r.deleted == st.deleted && r.current == st.current && r.binView == st.binView
    ensures KeepsSettings(r, st)
  {
    var blank := Note(st.notes[0].id, "", "", false, now);
    assert SortNotes([blank], st.sortOrder, titleLe) == [blank] by {
      assert [blank][1..] == [];
    }
    assert Ids([blank]) == Ids(st.notes);
    Render(st.(notes := [blank]), titleLe)
  }

  /** The note at `i` stamped and moved to the front of the bin; the
      selection passes to `notes[min(i, |notes| - 1)]` of what is left. */
  function MoveToBin(st: State, i: int, now: int, titleLe: (string, string) -> bool): (r: State)
    requires 0 <= i < |st.notes| && |st.notes| > 1
    ensures r.deleted == [st.notes[i].(lastModified := now)] + st.deleted
    ensures multiset(r.notes) == multiset(st.notes) - multiset{st.notes[i]}
    ensures |r.notes| == |st.notes| - 1
    ensures IdBag(r.notes) + IdBag(r.deleted) == IdBag(st.notes) + IdBag(st.deleted)
    ensures r.current == Some(st.notes[if i + 1 < |st.notes| then i + 1 else i - 1].id)
    ensures r.current.value in IdBag(r.notes)
    ensures r.binView == st.binView && KeepsSettings(r, st)
  {
    var rest := RemoveAt(st.notes, i);
    var next := if i < |rest| - 1 then i else |rest| - 1;
    var binned := [st.notes[i].(lastModified := now)] + st.deleted;
    MoveToBinIds(st.notes, st.deleted, i, now);
    SuccessorKept(st.notes, i, rest, next);
    st.(notes := SortNotes(rest, st.sortOrder, titleLe), deleted := binned, current := Some(rest[next].id))
  }

  /** Moving the note at `i` to the front of the bin keeps the ids of both
      collections together. */
  lemma MoveToBinIds(s: seq<Note>, d: seq<Note>, i: int, now: int)
    requires 0 <= i < |s|
    ensures IdBag(RemoveAt(s, i)) + IdBag([s[i].(lastModified := now)] + d) == IdBag(s) + IdBag(d)
  {
    IdsConcat([s[i].(lastModified := now)], d);
    assert Ids([s[i].(lastModified := now)]) == [s[i].id];
    assert Ids(s)[i] == s[i].id;
    MoveOne(IdBag(s), s[i].id, IdBag(d));
  }

  /** The note that takes the selection over after a delete: the one that
      followed the deleted note, or the one before it when it was last. */
  lemma SuccessorKept(s: seq<Note>, i: int, rest: seq<Note>, next: int)
    requires 0 <= i < |s| && |s| > 1 && rest == RemoveAt(s, i)
    requires next == if i < |rest| - 1 then i else |rest| - 1
    ensures 0 <= next < |rest|
    ensures rest[next] == s[if i + 1 < |s| then i + 1 else i - 1]
    ensures rest[next].id in IdBag(rest)
  {
    RemoveAtShift(s, i);
    assert Ids(rest)[next] == rest[next].id;
  }

  /** The list left by `MoveToBin` is what remains, re-sorted. */
  lemma MoveToBinNotes(st: State, i: int, now: int, titleLe: (string, string) -> bool)
    requires 0 <= i < |st.notes| && |st.notes| > 1
    ensures MoveToBin(st, i, now, titleLe).notes == SortNotes(RemoveAt(st.notes, i), st.sortOrder, titleLe)
  {
  }

  /** Moving one occurrence of `k` from one bag to another keeps their sum. */
  lemma MoveOne(a: multiset<int>, k: int, b: multiset<int>)
    requires k in a
    ensures (a - multiset{k}) + (multiset{k} + b) == a + b
  {
    forall y
      ensures ((a - multiset{k}) + (multiset{k} + b))[y] == (a + b)[y]
    {
    }
  }

  /** The restore button of the bin. Outside the bin, or for an id the bin
      does not hold, nothing happens. Otherwise the first note with that id
      leaves the bin, is stamped, goes in front of the list, is selected, and
      the editor is shown again. */
  function Restore(st: State, id: int, now: int, titleLe: (string, string) -> bool): (r: State)
    ensures !st.binView || id !in IdBag(st.deleted) ==> r == st
    ensures st.binView && id in IdBag(st.deleted) ==>
      r == MoveFromBin(st, FindIndex(st.deleted, id), now, titleLe)
    ensures |r.notes| + |r.deleted| == |st.notes| + |st.deleted|
    ensures IdBag(r.notes) + IdBag(r.deleted) == IdBag(st.notes) + IdBag(st.deleted)
    ensures r.sortOrder == st.sortOrder && r.theme == st.theme && r.query == st.query
  {
    if !st.binView then st
    else
      var i := FindIndex(st.deleted, id);
      if i == -1 then st
      else MoveFromBin(st, i, now, titleLe)
  }

  /** The bin entry at `i` stamped, put in front of the list and selected,
      with the editor shown again. */
  function MoveFromBin(st: State, i: int, now: int, titleLe: (string, string) -> bool): (r: State)
    requires st.binView && 0 <= i < |st.deleted|
    ensures multiset(r.notes) == multiset(st.notes) + multiset{st.deleted[i].(lastModified := now)}
    ensures multiset(r.deleted) == multiset(st.deleted) - multiset{st.deleted[i]}
    ensures IdBag(r.notes) == IdBag(st.notes) + multiset{st.deleted[i].id}
    ensures IdBag(r.deleted) == IdBag(st.deleted) - multiset{st.deleted[i].id}
    ensures IdBag(r.notes) + IdBag(r.deleted) == IdBag(st.notes) + IdBag(st.deleted)
    ensures r.current == Some(st.deleted[i].id) && !r.binView
    ensures |r.notes| + |r.deleted| == |st.notes| + |st.deleted|
    ensures KeepsSettings(r, st)
  {
    var back := st.deleted[i].(lastModified := now);
    var grown := [back] + st.notes;
    var left := RemoveAt(st.deleted, i);
    MoveFromBinIds(st.deleted, st.notes, i, back, grown, left);
    ShowEditorView(st.(deleted := left, notes := grown, current := Some(back.id)), titleLe)
  }

  /** Taking the bin entry at `i` out and putting a copy with the same id in
      front of the list keeps the ids of both collections together. */
  lemma MoveFromBinIds(d: seq<Note>, s: seq<Note>, i: int, back: Note, grown: seq<Note>, left: seq<Note>)
    requires 0 <= i < |d| && back.id == d[i].id
    requires grown == [back] + s && left == RemoveAt(d, i)
    ensures multiset(grown) == multiset(s) + multiset{back}
    ensures IdBag(grown) == IdBag(s) + multiset{back.id}
    ensures IdBag(left) == IdBag(d) - multiset{back.id}
    ensures IdBag(grown) + IdBag(left) == IdBag(s) + IdBag(d)
  {
    IdsConcat([back], s);
    assert Ids([back]) == [back.id];
    assert Ids(d)[i] == back.id;
    MoveOne(IdBag(d), back.id, IdBag(s));
  }

  /** The permanent-delete button of the bin: only inside the bin and only
      once the user has confirmed, every deleted note with that id is gone
      for good; the active notes and the selection are untouched. */
  function PermanentDelete(st: State, id: int, confirmed: bool, titleLe: (string, string) -> bool): (r: State)
    ensures !(st.binView && confirmed) ==> r == st
    ensures st.binView && confirmed ==>
      && (forall n :: n in r.deleted <==> n in st.deleted && n.id != id)
      && IdBag(r.deleted) == IdBag(st.deleted)[id := 0]
    ensures multiset(r.notes) == multiset(st.notes) && IdBag(r.notes) == IdBag(st.notes)
    ensures r.current == st.current
    ensures r.binView == st.binView && r.sortOrder == st.sortOrder
    ensures r.theme == st.theme && r.query == st.query
  {
    if !st.binView || !confirmed then st
    else
      IdBagRemoveId(st.deleted, id);
      ShowRecycleBinView(st.(deleted := RemoveId(st.deleted, id)), titleLe)
  }

  /** `togglePin`: flips the pin of the first active note with that id and
      stamps it; a stale id changes nothing. It is reachable from the side
      list, which stays visible in the bin. */
  function TogglePin(st: State, id: int, now: int, titleLe: (string, string) -> bool): (r: State)
    ensures id !in IdBag(st.notes) ==> r == st
    ensures id in IdBag(st.notes) ==> r == PinAt(st, FindIndex(st.notes, id), now, titleLe)
    ensures IdBag(r.notes) == IdBag(st.notes)
    ensures r.deleted == st.deleted && r.current == st.current && r.binView == st.binView
    ensures KeepsSettings(r, st)
  {
    var i := FindIndex(st.notes, id);
    if i == -1 then st else PinAt(st, i, now, titleLe)
  }

  /** The note at `i` with its pin flipped and stamped, the list redrawn. */
  function PinAt(st: State, i: int, now: int, titleLe: (string, string) -> bool): (r: State)
    requires 0 <= i < |st.notes|
    ensures multiset(r.notes) == multiset(st.notes) - multiset{st.notes[i]}
      + multiset{st.notes[i].(isPinned := !st.notes[i].isPinned, lastModified := now)}
    ensures IdBag(r.notes) == IdBag(st.notes)
    ensures r.deleted == st.deleted && r.current == st.current && r.binView == st.binView
    ensures KeepsSettings(r, st)
  {
    var n := st.notes[i];
    var flipped := n.(isPinned := !n.isPinned, lastModified := now);
    UpdateMultiset(st.notes, i, flipped);
    IdsUpdate(st.notes, i, flipped);
    Render(st.(notes := st.notes[i := flipped]), titleLe)
  }

  /** A click on a note of the side list (not on its pin): selects it and
      leaves the bin. Clicking the note already being edited does nothing. */
  function SelectNote(st: State, id: int, titleLe: (string, string) -> bool): (r: State)
    ensures st.current == Some(id) && !st.binView ==> r == st
    ensures r.current == Some(id) && !r.binView
    ensures multiset(r.notes) == multiset(st.notes) && IdBag(r.notes) == IdBag(st.notes)
    ensures r.deleted == st.deleted && KeepsSettings(r, st)
  {
    if st.current == Some(id) && !st.binView then st
    else
      var s1 := ShowEditorView(st, titleLe);
      Render(s1.(current := Some(id)), titleLe)
  }

  /** The debounced flush, as it runs when the timer fires: it looks up the
      note selected at that moment and writes the editor's title and markup
      into it only if one of them differs, stamping it; an unchanged note is
      left exactly as it was, `lastModified` included. */
  function FlushEdit(st: State, title: string, content: string, now: int,
                     titleLe: (string, string) -> bool): (r: State)
    ensures st.current.None? || st.current.value !in IdBag(st.notes) ==> r == st
    ensures st.current.Some? && st.current.value in IdBag(st.notes) ==>
      r == FlushAt(st, FindIndex(st.notes, st.current.value), title, content, now, titleLe)
    ensures IdBag(r.notes) == IdBag(st.notes)
    ensures r.deleted == st.deleted && r.current == st.current && r.binView == st.binView
    ensures KeepsSettings(r, st)
  {
    if st.current.None? then st
    else
      var i := FindIndex(st.notes, st.current.value);
      if i == -1 then st else FlushAt(st, i, title, content, now, titleLe)
  }

  /** The editor's text written into the note at `i`: an unchanged note is
      left exactly as it was, `lastModified` included; a changed one is
      stamped and the list redrawn. */
  function FlushAt(st: State, i: int, title: string, content: string, now: int,
                   titleLe: (string, string) -> bool): (r: State)
    requires 0 <= i < |st.notes|
    ensures st.notes[i].title == title && st.notes[i].content == content ==> r == st
    ensures st.notes[i].title != title || st.notes[i].content != content ==>
      multiset(r.notes) == multiset(st.notes) - multiset{st.notes[i]}
        + multiset{st.notes[i].(title := title, content := content, lastModified := now)}
    ensures IdBag(r.notes) == IdBag(st.notes)
    ensures r.deleted == st.deleted && r.current == st.current && r.binView == st.binView
    ensures KeepsSettings(r, st)
  {
    var n := st.notes[i];
    if n.title == title && n.content == content then st
    else
      var edited := n.(title := title, content := content, lastModified := now);
      UpdateMultiset(st.notes, i, edited);
      IdsUpdate(st.notes, i, edited);
      Render(st.(notes := st.notes[i := edited]), titleLe)
  }

  /** An edit followed by its flush with no other event in between. The edit
      handler arms the timer only while a truthy selection is being edited
      outside the bin, so any other edit is dropped. */
  function Autosave(st: State, title: string, content: string, now: int,
                    titleLe: (string, string) -> bool): (r: State)
    ensures !Selected(st.current) || st.binView ==> r.notes == st.notes
    ensures Selected(st.current) && !st.binView ==> r == FlushEdit(st, title, content, now, titleLe)
    ensures IdBag(r.notes) == IdBag(st.notes)
    ensures r.deleted == st.deleted && r.current == st.current && r.binView == st.binView
    ensures KeepsSettings(r, st)
  {
    if !Selected(st.current) || st.binView then st
    else FlushEdit(st, title, content, now, titleLe)
  }

  /** A new choice in the sort selector: the list is re-sorted under it. */
  function SetSortOrder(st: State, mode: string, titleLe: (string, string) -> bool): (r: State)
    ensures r.sortOrder == mode
    ensures multiset(r.notes) == multiset(st.notes) && IdBag(r.notes) == IdBag(st.notes)
    ensures r.deleted == st.deleted && r.current == st.current && r.binView == st.binView
    ensures r.theme == st.theme && r.query == st.query
  {
    Render(st.(sortOrder := mode), titleLe)
  }

  /** Typing in the search box: the list is redrawn for the new text. */
  function SetQuery(st: State, raw: string, titleLe: (string, string) -> bool): (r: State)
    ensures r.query == raw
    ensures multiset(r.notes) == multiset(st.notes) && IdBag(r.notes) == IdBag(st.notes)
    ensures r.deleted == st.deleted && r.current == st.current && r.binView == st.binView
    ensures r.sortOrder == st.sortOrder && r.theme == st.theme
  {
    Render(st.(query := raw), titleLe)
  }

  /** The theme button: the next theme of the cycle; notes are untouched. */
  function ToggleTheme(st: State): (r: State)
    ensures r.theme in Theme.Themes
    ensures st.theme in Theme.Themes ==> r.theme != st.theme
    ensures r.theme == Theme.NextTheme(st.theme)
    ensures r.notes == st.notes && r.deleted == st.deleted && r.current == st.current
    ensures r.binView == st.binView && r.sortOrder == st.sortOrder && r.query == st.query
  {
    st.(theme := Theme.NextTheme(st.theme))
  }

  /** The notes the side list shows: the active collection filtered by the
      search box text. */
  function Visible(st: State): (r: seq<Note>)
    ensures multiset(r) <= multiset(st.notes)
  {
    Search.FilterNotes(st.notes, st.query)
  }

  /** The selection after loading: kept when it names an active note,
      otherwise the first active note, or none when there is none. */
  function RepairSelection(notes: seq<Note>, current: Option<int>): (r: Option<int>)
    ensures current.Some? && current.value in IdBag(notes) ==> r == current
    ensures r.Some? ==> r.value in IdBag(notes)
    ensures r.None? <==> |notes| == 0
    ensures !(current.Some? && current.value in IdBag(notes)) && |notes| > 0 ==> r == Some(notes[0].id)
  {
    if current.Some? && FindIndex(notes, current.value) != -1 then current
    else if |notes| > 0 then
      assert Ids(notes)[0] == notes[0].id;
      Some(notes[0].id)
    else None
  }

  /** `result.sortOrder || 'date-desc'`: a missing or empty stored mode falls
      back to the default one. */
  function LoadedSortOrder(stored: Option<string>): (r: string)
    ensures stored.None? || stored.value == "" ==> r == DefaultSortOrder
    ensures stored.Some? && stored.value != "" ==> r == stored.value
    ensures r != ""
  {
    match stored
    case Some(m) => if m == "" then DefaultSortOrder else m
    case None => DefaultSortOrder
  }

  /** `loadData`, run once at start-up on what storage returned. Missing
      collections count as empty, a missing or empty sort mode as
      `date-desc`, an unknown theme as the default. With nothing stored at
      all, one empty note is created and selected; otherwise the notes are
      sorted and the selection repaired. */
  function Load(snap: Snapshot, id: int, now: int, titleLe: (string, string) -> bool): (r: State)
    ensures r.theme == Theme.LoadedTheme(snap.theme)
    ensures r.sortOrder == LoadedSortOrder(snap.sortOrder)
    ensures !r.binView && r.query == ""
    ensures snap.notes.GetOr([]) == [] && snap.deletedNotes.GetOr([]) == [] ==>
      r.notes == [EmptyNote(id, now)] && r.deleted == [] && r.current == Some(id)
    ensures !(snap.notes.GetOr([]) == [] && snap.deletedNotes.GetOr([]) == []) ==>
      && multiset(r.notes) == multiset(snap.notes.GetOr([]))
      && r.deleted == snap.deletedNotes.GetOr([])
      && (r.current.None? <==> r.notes == [])
      && (r.current.Some? ==> r.current.value in IdBag(r.notes))
  {
    var mode := LoadedSortOrder(snap.sortOrder);
    var s0 := Initial().(
      notes := snap.notes.GetOr([]),
      deleted := snap.deletedNotes.GetOr([]),
      sortOrder := mode,
      theme := Theme.LoadedTheme(snap.theme));
    if s0.notes == [] && s0.deleted == [] then StartEmpty(s0, id, now, titleLe)
    else StartStored(s0, titleLe)
  }

  /** Nothing stored: one empty note is created and selected. */
  function StartEmpty(s0: State, id: int, now: int, titleLe: (string, string) -> bool): (r: State)
    requires s0.notes == [] && !s0.binView
    ensures r.notes == [EmptyNote(id, now)] && r.current == Some(id)
    ensures r == s0.(notes := r.notes, current := r.current, query := "")
  {
    var s1 := CreateNote(s0, id, now, titleLe);
    assert s1.notes == [EmptyNote(id, now)] by {
      SortNotesSingle(EmptyNote(id, now), s0.sortOrder, titleLe);
    }
    Render(s1, titleLe)
  }

  /** Something stored: the notes are sorted and the selection repaired
      against them. */
  function StartStored(s0: State, titleLe: (string, string) -> bool): (r: State)
    ensures multiset(r.notes) == multiset(s0.notes) && IdBag(r.notes) == IdBag(s0.notes)
    ensures r.current.None? <==> |r.notes| == 0
    ensures r.current.Some? ==> r.current.value in IdBag(r.notes)
    ensures s0.current.None? && |s0.notes| > 0 ==>
      r.current == Some(SortNotes(s0.notes, s0.sortOrder, titleLe)[0].id)
    ensures r == s0.(notes := r.notes, current := r.current)
  {
    var sorted := SortNotes(s0.notes, s0.sortOrder, titleLe);
    var r := Render(s0.(notes := sorted, current := RepairSelection(sorted, s0.current)), titleLe);
    assert IdBag(r.notes) == IdBag(sorted) && |r.notes| == |sorted|;
    r
  }
}

=== FILE: text.dfy ===
/** The JavaScript string primitives the note list relies on:
    `toLowerCase`, `trim` and `includes`, over strings as `seq<char>`. */
module JsText {

  /** Lower-cases an ASCII upper-case letter and leaves every other character
      alone. */
  function LowerChar(c: char): (r: char)
    ensures 'A' <= c <= 'Z' ==> 'a' <= r <= 'z' && r as int == c as int + 32
    ensures !('A' <= c <= 'Z') ==> r == c
  {
    if 'A' <= c <= 'Z' then (c as int + 32) as char else c
  }

  /** `toLowerCase`, character by character. */
  function ToLower(s: string): (r: string)
    ensures |r| == |s|
    ensures forall i :: 0 <= i < |s| ==> r[i] == LowerChar(s[i])
  {
    seq(|s|, i requires 0 <= i < |s| => LowerChar(s[i]))
  }

  /** The characters `String.prototype.trim` strips: the white-space code
      points (tab, vertical tab, form feed, the byte order mark and every
      space separator) and the line terminators. */
  predicate IsWhitespace(c: char)
  {
    c in WhitespaceChars || '\U{2000}' <= c <= '\U{200A}'
  }

  /** The white-space characters outside the range U+2000 to U+200A. */
  const WhitespaceChars: set<char> := {
    '\t', '\n', '\U{000B}', '\U{000C}', '\r', ' ', '\U{00A0}', '\U{1680}',
    '\U{2028}', '\U{2029}', '\U{202F}', '\U{205F}', '\U{3000}', '\U{FEFF}'}

  /** The number of white-space characters `s` starts with. */
  function LeadingSpace(s: string): (k: nat)
    ensures k <= |s|
    ensures forall i :: 0 <= i < k ==> IsWhitespace(s[i])
    ensures k < |s| ==> !IsWhitespace(s[k])
    decreases |s|
  {
    if |s| > 0 && IsWhitespace(s[0]) then
      var k := LeadingSpace(s[1..]);
      assert forall i :: 1 <= i <= k ==> s[i] == s[1..][i - 1];
      k + 1
    else 0
  }

  /** Where the text of `s[lo..e]` ends once the white space before `e` is
      dropped, when everything from `e` on is white space already. */
  function TrailingEnd(s: string, lo: nat, e: nat): (r: nat)
    requires lo <= e <= |s|
    requires forall i :: e <= i < |s| ==> IsWhitespace(s[i])
    ensures lo <= r <= e
    ensures forall i :: r <= i < |s| ==> IsWhitespace(s[i])
    ensures r > lo ==> !IsWhitespace(s[r - 1])
    decreases e
  {
    if e > lo && IsWhitespace(s[e - 1]) then TrailingEnd(s, lo, e - 1) else e
  }

  /** `r` is the slice of `s` at `k` with only white space around it. */
  ghost predicate TrimmedAt(s: string, r: string, k: int)
  {
    && OccursAt(s, r, k)
    && (forall i :: 0 <= i < k ==> IsWhitespace(s[i]))
    && (forall i :: k + |r| <= i < |s| ==> IsWhitespace(s[i]))
  }

  /** `trim`: the slice of `s` between its leading and trailing white space;
      it is empty exactly when `s` is all white space. */
  function Trim(s: string): (r: string)
    ensures exists k :: TrimmedAt(s, r, k)
    ensures |r| > 0 ==> !IsWhitespace(r[0]) && !IsWhitespace(r[|r| - 1])
    ensures |r| == 0 <==> forall i :: 0 <= i < |s| ==> IsWhitespace(s[i])
  {
    var a := LeadingSpace(s);
    var b := TrailingEnd(s, a, |s|);
    assert TrimmedAt(s, s[a..b], a);
    assert b > a ==> s[a..b][0] == s[a] && s[a..b][b - a - 1] == s[b - 1];
    s[a..b]
  }

  /** A string with no white space at either end is its own trim. */
  lemma TrimNoSpace(s: string)
    requires |s| > 0 ==> !IsWhitespace(s[0]) && !IsWhitespace(s[|s| - 1])
    ensures Trim(s) == s
  {
    if |s| > 0 {
      assert LeadingSpace(s) == 0;
      assert TrailingEnd(s, 0, |s|) == |s|;
    }
  }

  /** `q` occurs in `s` starting at index `i`. */
  predicate OccursAt(s: string, q: string, i: int)
  {
    0 <= i && i + |q| <= |s| && s[i..i + |q|] == q
  }

  /** `s.includes(q)`: a left-to-right scan for an occurrence. */
  predicate Includes(s: string, q: string)
    decreases |s|
  {
    if |q| <= |s| && s[..|q|] == q then true
    else if |s| == 0 then false
    else Includes(s[1..], q)
  }

  /** The scan finds an occurrence exactly when there is one. */
  lemma {:induction false} IncludesIffOccurs(s: string, q: string)
    ensures Includes(s, q) <==> exists i :: OccursAt(s, q, i)
    decreases |s|
  {
    if |q| <= |s| && s[..|q|] == q {
      assert OccursAt(s, q, 0);
    } else if |s| == 0 {
    } else {
      IncludesIffOccurs(s[1..], q);
      if Includes(s[1..], q) {
        var i :| OccursAt(s[1..], q, i);
        assert s[1..][i..i + |q|] == s[i + 1..i + 1 + |q|];
        assert OccursAt(s, q, i + 1);
      }
      if exists i :: OccursAt(s, q, i) {
        var i :| OccursAt(s, q, i);
        assert i != 0;
        assert s[1..][i - 1..i - 1 + |q|] == s[i..i + |q|];
        assert OccursAt(s[1..], q, i - 1);
      }
    }
  }
}

=== FILE: theme.dfy ===
/** The theme button: four themes visited in a fixed cycle. */
module Theme {
  import opened Wrappers

  const Themes: seq<string> := ["light", "dark", "slate", "glassmorphism"]
  const DefaultTheme: string := "glassmorphism"

  /** `themes.indexOf(t)`: the first position of `t`, or -1. */
  function ThemeIndex(t: string): (i: int)
    ensures -1 <= i < |Themes|
    ensures i == -1 <==> t !in Themes
    ensures i >= 0 ==> Themes[i] == t
  {
    if t == "light" then 0
    else if t == "dark" then 1
    else if t == "slate" then 2
    else if t == "glassmorphism" then 3
    else -1
  }

  /** `themes[(indexOf(t) + 1) % themes.length]`: the theme after `t`; an
      unknown theme has index -1 and so moves to the first one. */
  function NextTheme(t: string): (r: string)
    ensures r in Themes
    ensures t !in Themes ==> r == Themes[0]
    ensures t in Themes ==> r != t
  {
    Themes[(ThemeIndex(t) + 1) % |Themes|]
  }

  /** The theme restored from storage: the stored one when it is one of the
      four, the default otherwise. */
  function LoadedTheme(stored: Option<string>): (r: string)
    ensures r in Themes
    ensures stored.Some? && stored.value in Themes ==> r == stored.value
    ensures !(stored.Some? && stored.value in Themes) ==> r == DefaultTheme
  {
    match stored
    case Some(t) => if t in Themes then t else DefaultTheme
    case None => DefaultTheme
  }

  /** One click from each of the four themes. */
  lemma NextThemeSteps()
    ensures NextTheme("light") == "dark" && NextTheme("dark") == "slate"
    ensures NextTheme("slate") == "glassmorphism" && NextTheme("glassmorphism") == "light"
  {
    assert ThemeIndex("light") == 0 && ThemeIndex("dark") == 1;
    assert ThemeIndex("slate") == 2 && ThemeIndex("glassmorphism") == 3;
  }

  /** Four clicks bring every theme back to itself, and the cycle passes
      through all four themes. */
  lemma NextThemeCycle(t: string)
    requires t in Themes
    ensures NextTheme(NextTheme(NextTheme(NextTheme(t)))) == t
    ensures forall u :: u in Themes <==>
      u in [t, NextTheme(t), NextTheme(NextTheme(t)), NextTheme(NextTheme(NextTheme(t)))]
  {
    NextThemeSteps();
  }
}

=== FILE: wrappers.dfy ===
/** The nullable values of the extension's state: a selection id that may be
    `null`, and snapshot fields that may be absent from storage. */
module Wrappers {

  datatype Option<+T> = None | Some(value: T) {

    /** The value, or `default` when absent (JavaScript's `x || default` for a
        field whose present values are all truthy). */
    function GetOr(default: T): T
    {
      match this
      case Some(v) => v
      case None => default
    }
  }
}
